=== FILE: README.md ===
# HSCDTD008A magnetometer driver — a Dafny model

This project models the device-control protocol of the HSCDTD008A
magnetometer driver and the small transport layer under it, and proves
what each operation returns and which bus transactions it issues.

The model covers these parts of the driver:

- the read-modify-write setters for CTRL1, CTRL2 and CTRL4;
- the CTRL3 triggers: soft reset, self-test, offset calibration,
  temperature compensation and forced measurement;
- the two bounded polling loops on STATUS;
- `initialize`, with its ten-attempt reset loop;
- the decoder for the six little-endian data bytes.

It also models the transport functions `read_register`,
`read_register_multi` and `write_register`, which fold null buffers and
every backend failure into one `TRANSPORT_ERROR`.

**The bus.** Every operation talks to the chip through register reads,
register writes and sleeps. The chip is a scripted oracle, `Platform.Bus`:
a fixed sequence of replies, each a status and the bytes delivered, and
each read or write consumes the next one. Once the script is used up,
every transaction fails with -1. Each call the driver makes is appended
to an event log (`Read`, `Write`, `Slept`, `Opened`). The contracts are
stated in terms of the replies (`bus.Peek(k)`) and the events issued
(`New(before, after)`). The backend's capacity rule is part of the bus:
a read of 32 bytes or more, or a write of 31 or more, returns -2 and
consumes no reply.

**Fields.** The register bit layouts live in a header that is not part
of this model. So each field is an abstract `(mask, shift)` over a `bv8`
(`BitField.Field`). `Registers.Layout` gives every field the driver
touches, and the field-update facts are proved for every field.

**Numbers.** Statuses are `int8`. Readings are exact integers in
nanotesla: 150 nT per least significant bit, in place of the C float.

**Modules.**

- `BitField`: field get/set and the read-modify-write lemmas.
- `Registers`: register names and the field layout.
- `Codec`: two's-complement bytes and words, and the six-byte axis codec.
- `Platform`: the scripted bus and the backend calls.
- `Trace`: event counting, repeated poll blocks, and the first stopping
  poll of a run.
- `Retry`: the reset loop of `initialize`, stated for any attempt.
- `Checks`: a fail-fast sequence of transactions, each reply checked in
  turn, as the bring-up part of `initialize` runs it.
- `Driver`: `hscdtd008a.c`.
- `Transport`: `transport.c`.

## Model

| member | source | states |
|---|---|---|
| BitField.Set | src/hscdtd008a.c:100 | writing a value into a field of a register byte changes only that field's bits, which then hold the value cut to the field's width |
| BitField.ReplacesUnique | src/hscdtd008a.c:96-102 | the byte a read-modify-write writes is determined by the byte read and the new field value |
| BitField.GetAfterReplace | src/hscdtd008a.c:100 | reading a field back after setting it yields the value written, cut to the field's width |
| BitField.FlagReadsBack | src/hscdtd008a.c:602 | a one-bit flag set to 1 reads back as 1 |
| BitField.ReplaceKeepsOther | src/hscdtd008a.c:100 | setting one field leaves every field with disjoint bits unchanged |
| Codec.Int8 | src/hscdtd008a.c:525-530 | the signed value of a TEMP byte lies in [-128, 127], agrees with the byte modulo 256, and is negative exactly when the top bit is set |
| Codec.Int8Byte | src/hscdtd008a.c:525-530 | every int8 value has a byte whose signed reading is that value |
| Codec.Int16 | src/hscdtd008a.c:690 | the signed word `hi:lo` lies in the int16 range, agrees with `lo + 256*hi` modulo 65536, and is negative exactly when the top bit of `hi` is set |
| Codec.Int16Bytes | src/hscdtd008a.c:688-692 | every int16 value has little-endian bytes that decode back to it |
| Codec.Int16Injective | src/hscdtd008a.c:690 | different byte pairs decode to different words |
| Codec.DecodeAxes | src/hscdtd008a.c:688-692 | decoding six data bytes gives three in-range axes whose little-endian encoding is exactly those bytes |
| Codec.DecodeEncodeAxes | src/hscdtd008a.c:688-692 | encoding in-range axes and decoding the bytes gives back the axes |
| Codec.Scale | src/hscdtd008a.c:691 | a reading in nanotesla is a multiple of 150 nT per axis, and the raw counts can be recovered from it |
| Platform.ReadRegs | src/driver/platform_rpi.cpp:71-90 | a read logs one event and delivers exactly `len` bytes; at 32 bytes or more it returns -2 and consumes no reply; otherwise it returns the reply's status and bytes and consumes that reply |
| Platform.WriteRegs | src/driver/platform_rpi.cpp:102-127 | a write logs one event; at 31 bytes or more it returns -2 and consumes no reply; otherwise it returns the reply's status |
| Trace.ReadsRepeat | src/hscdtd008a.c:655-664 | `n` repetitions of a poll block read a register `n` times as often as one block does |
| Trace.FirstStop | src/hscdtd008a.c:655-664 | the stopping poll of a run is the first one that fails or sees the flag: every earlier poll succeeded with the flag clear |
| Retry.Loop | src/hscdtd008a.c:31-36 | the reset loop continues the bus: it only consumes replies and appends events |
| Retry.Run | src/hscdtd008a.c:31-40 | the counted C loop, left on the first success, computes the same outcome as the loop's recursive definition |
| Retry.Bounded | src/hscdtd008a.c:31-36 | for any attempt that writes CTRL3 once, the loop makes at least one attempt and at most ten |
| Retry.Count | src/hscdtd008a.c:31-36 | when attempt `n` is the first that goes through, the loop succeeds after exactly `n + 1` attempts |
| Retry.GivesUp | src/hscdtd008a.c:31-40 | when every attempt fails, the loop makes all ten and returns the last attempt's nonzero status |
| Driver.UpdateField | src/hscdtd008a.c:91-107 | a read-modify-write returns a failed read's status and writes nothing; otherwise it writes one byte that is the byte read with only the field replaced, and returns the write's status |
| Driver.SetMode | src/hscdtd008a.c:91-107 | read-modify-write of PC in CTRL1 |
| Driver.SetOutputDataRate | src/hscdtd008a.c:126-142 | read-modify-write of ODR in CTRL1 |
| Driver.SetState | src/hscdtd008a.c:160-176 | read-modify-write of FS in CTRL1 |
| Driver.SetFifoDataStorageMethod | src/hscdtd008a.c:200-216 | read-modify-write of FCO in CTRL2 |
| Driver.SetFifoComparisonMethod | src/hscdtd008a.c:236-252 | read-modify-write of AOR in CTRL2 |
| Driver.SetFifoEnable | src/hscdtd008a.c:269-285 | read-modify-write of FF in CTRL2 |
| Driver.SetDataReadyPinEnable | src/hscdtd008a.c:303-319 | read-modify-write of DEN in CTRL2 |
| Driver.SetDataReadyPinPolarity | src/hscdtd008a.c:339-355 | read-modify-write of DRP in CTRL2 |
| Driver.SetResolution | src/hscdtd008a.c:375-391 | read-modify-write of RS in CTRL4 |
| Driver.OffsetCalibration | src/hscdtd008a.c:430-448 | read-modify-write setting OCL in CTRL3 |
| Driver.WhoIAmCheck | src/hscdtd008a.c:404-418 | one WIA read; 0 exactly when it succeeds and reads 0x49; a failed read's status unchanged; -1 for any other byte |
| Driver.ReadTemp | src/hscdtd008a.c:521-531 | one TEMP read, whose status is ignored; the result is the int8 whose byte is the one delivered |
| Driver.CheckResponse | src/hscdtd008a.c:564-580 | 0 exactly when SELFTEST_RESP reads 0xAA then 0x55; -20 on a wrong first byte, with no second read; -30 on a wrong second byte; a failed read's status unchanged |
| Driver.SelfTest | src/hscdtd008a.c:542-581 | the self-test succeeds exactly when the CTRL3 read-modify-write goes through and the two responses are right |
| Driver.SelfTestLog | src/hscdtd008a.c:548-577 | a passing self-test issues the CTRL3 read-modify-write setting STC, a 5 ms wait and two SELFTEST_RESP reads, in that order |
| Driver.SelfTestFailures | src/hscdtd008a.c:548-577 | each failure of the self-test, with its status and the events issued up to it: a failed CTRL3 read-modify-write is returned as is; after one that went through, the STC read-modify-write and the 5 ms wait come first, then one SELFTEST_RESP read when it fails or is not 0xAA (its status, or -20), or two when the second fails or is not 0x55 (its status, or -30) |
| Driver.SoftReset | src/hscdtd008a.c:594-620 | writes CTRL3 with SRST set and no prior read, the other bits arbitrary; a failed write stops there; then 5 ms and a CTRL3 read; 0 exactly when both go through and SRST reads back clear; -1 exactly when SRST reads back set |
| Driver.SoftResetWrites | src/hscdtd008a.c:602-603 | a soft reset writes CTRL3 exactly once |
| Driver.ResetAttemptWrites | src/hscdtd008a.c:31-36 | every attempt of the reset loop is a soft reset, so it writes CTRL3 exactly once |
| Driver.ResetLoop | src/hscdtd008a.c:31-36 | the reset loop of `initialize` continues the bus |
| Driver.ResetSucceedsAt | src/hscdtd008a.c:31-36 | when soft reset `n` is the first to go through, the reset loop succeeds after exactly `n + 1` soft resets |
| Driver.ResetGivesUp | src/hscdtd008a.c:31-40 | when all ten soft resets fail, the loop makes all ten and returns the last one's status |
| Driver.ResetBounded | src/hscdtd008a.c:31-36 | whatever the replies, the reset loop makes between one and ten soft resets |
| Driver.ResetChip | src/hscdtd008a.c:31-36 | the reset loop run as the C code runs it |
| Driver.Initialize | src/hscdtd008a.c:17-66 | opens the bus, ignoring its result, then waits 100 ms and runs the reset loop. A failed reset loop is returned. Otherwise it waits 50 ms and brings the chip up: the status is that of the first of the nine bring-up transactions whose reply fails or carries a wrong byte (-1, -20 or -30 for a wrong WIA, first or second response), no reply after it is consumed, and a failed or wrong WIA read is the only event; it succeeds exactly on a healthy chip, issuing the ten bring-up events |
| Driver.Bringup | src/hscdtd008a.c:45-65 | WIA check, 15-bit resolution, active mode and self-test, in that order: the status is the verdict of the first reply that fails its check, and no reply after it is consumed; a failed or wrong WIA read is the only event; 0 exactly on a healthy chip, with the ten expected events |
| Driver.Configure | src/hscdtd008a.c:50-65 | the resolution, mode and self-test steps: the status is that of the first of the eight transactions that fails or gives a wrong response, with no reply after it consumed; 0 exactly when each goes through |
| Driver.Activate | src/hscdtd008a.c:55-65 | the mode and self-test steps: the status is that of the first of the six transactions that fails or gives a wrong response, with no reply after it consumed; 0 exactly when both go through |
| Driver.ActivateRuns | src/hscdtd008a.c:55-63 | the self-test runs only when the mode change went through, so the pair stops at the first failure of either |
| Driver.BringupRuns | src/hscdtd008a.c:45-48 | a failed or wrong WIA read stops the bring-up with its verdict; otherwise the bring-up is the configuration from the next reply on |
| Driver.RmwRuns | src/hscdtd008a.c:96-104 | a read-modify-write stops a run at its failed read or its failed write, and otherwise hands over to the next step |
| Driver.SelfTestRuns | src/hscdtd008a.c:548-577 | the self-test returns the status of its first failed transaction, -20 for a wrong first response or -30 for a wrong second one, and consumes no reply after it |
| Driver.CheckResponseRuns | src/hscdtd008a.c:562-577 | the response reads stop at the first failed read or wrong byte |
| Checks.PassesFirst | src/hscdtd008a.c:45-65 | a fail-fast run whose first reply passes is the run of the remaining checks from the next reply on |
| Checks.StopsAt | src/hscdtd008a.c:45-65 | a fail-fast run returns the verdict of the first reply that fails its check and consumes nothing after it |
| Checks.SucceedsIff | src/hscdtd008a.c:45-65 | a fail-fast run whose wrong-byte statuses are nonzero succeeds exactly when every reply passes its check |
| Driver.SoftResetSetsSrst | src/hscdtd008a.c:602-603 | when SRST is a one-bit flag, the byte a soft reset writes has it set, whatever the leftover image held |
| Driver.ReadMagnetodata | src/hscdtd008a.c:675-695 | one 6-byte read from XOUT_L; a failed read returns its status and leaves the caller's reading unchanged; on success the reading is exactly the decoded bytes times 150 nT |
| Driver.AwaitTemperature | src/hscdtd008a.c:489-508 | the TRDY polling loop: with `k` the first poll that fails or sees TRDY, it issues `k + 1` (wait, STATUS read) blocks; a failed poll returns its status; a poll that sees TRDY reads TEMP and returns 0; with no such poll it returns the -1 timeout |
| Driver.AwaitTemperatureAsWritten | src/hscdtd008a.c:486-508 | the same loop as written: when all polls succeed without TRDY it returns the last poll's 0 |
| Driver.TemperatureCompensation | src/hscdtd008a.c:469-509 | sets TCS by read-modify-write, returning its failure, then polls; succeeds exactly when some poll sees TRDY before any poll fails |
| Driver.TemperatureCompensationAsWritten | src/hscdtd008a.c:469-509 | as written: also "succeeds" when all 50 polls go through without TRDY |
| Driver.TimeoutReportedAsSuccess | src/hscdtd008a.c:486-508 | on a chip that answers every transaction with success and a zero byte, the code as written returns 0 where the timeout -1 is meant |
| Driver.StartForced | src/hscdtd008a.c:636-652 | one STATUS read to clear it, returning its failure, then the CTRL3 read-modify-write setting FRC; 0 exactly when the first three replies go through |
| Driver.StartForcedReads | src/hscdtd008a.c:636-652 | the start of a measurement reads STATUS exactly once |
| Driver.AwaitDataReady | src/hscdtd008a.c:655-667 | the DRDY polling loop computes the closed form `DrdyPoll`. With `k` the first of 50 polls that fails or sees DRDY, `k` quiet (STATUS read, 1 ms) blocks come first, then poll `k`'s status is returned. With no such poll it returns -5 after 50 blocks |
| Driver.Measure | src/hscdtd008a.c:629-672 | a failed start is returned; otherwise the DRDY loop; on DRDY the data read, whose status is returned; the caller's reading changes only on success; at most 51 STATUS reads |
| Driver.PollEvents | src/hscdtd008a.c:655-671 | the events after the start are `k` quiet blocks, then nothing after a timeout, the failed STATUS read, or the STATUS read that saw DRDY followed by the data read |
| Driver.MeasurePollsBounded | src/hscdtd008a.c:655-664 | the loop reads STATUS at most 50 times |
| Driver.DataReadOnlyWhenReady | src/hscdtd008a.c:666-671 | the data registers are read exactly once when a poll saw DRDY, and never after a timeout or a failed poll |
| Transport.ReadRegisterMulti | src/driver/transport.c:30-47 | a null buffer gives TRANSPORT_ERROR with no backend call; otherwise one backend read of `length` bytes; OK exactly when the buffer is non-null and the backend returns 0 |
| Transport.ReadRegister | src/driver/transport.c:11-19 | a one-byte multi-read: OK exactly when the buffer is non-null and the backend read succeeds, delivering the reply's byte |
| Transport.WriteRegister | src/driver/transport.c:58-74 | a null source gives TRANSPORT_ERROR with no backend call; otherwise one backend write of exactly one byte; OK exactly when the backend returns 0 |
| Transport.FailuresCollapse | src/driver/transport.c:42-46 | any two nonzero backend codes give the same TRANSPORT_ERROR, the same buffer and the same log |

## Left out

- Float scaling by the nanotesla-per-LSB constant (src/hscdtd008a.c:691) is modelled as exact integers at 150 nT per count.
- `t_sleep_ms` has no timing semantics; only its place in the event log is modelled.
- The result of `t_open` is ignored by `initialize`, so opening is only an `Opened` event. The Linux `open`/`ioctl` calls, `printf` diagnostics and the global descriptor are left out.
- The backend's `strncpy` copy, which stops at the first zero byte, is left out: a successful read delivers the reply's bytes as they are. A read refused at 32 bytes or more delivers unspecified bytes of the right length. A read that fails on the bus delivers the failing reply's bytes, which the script chooses freely; the Raspberry Pi backend instead zeroes only the first byte (src/driver/platform_rpi.cpp:78) and leaves the rest of the caller's buffer as it was.
- Register bit positions are in a header that is not part of this model. Fields are abstract `(mask, shift)` pairs, and `Registers.Layout` names one per field the driver touches.
- The device address is not modelled. The driver and the transport both call `t_read_register` with (address, register, length, buffer) (src/hscdtd008a.c:8, src/driver/transport.c:42). The Raspberry Pi backend declares it with (register, length, buffer, device) (src/driver/platform_rpi.cpp:43-46). All reads go through the one abstract `Platform.ReadRegs`.
- Statuses are not disambiguated. `who_i_am_check` and `soft_reset` return -1, and so does a failed backend call; the model returns -1 in each place, as the code does.
- Driver.ReadTemp: after a failed TEMP read the model returns the byte the failed reply carries. The C code does not define that value: `temp` is an uninitialised local (src/hscdtd008a.c:523). The Raspberry Pi backend zeroes the first buffer byte before the transfer (src/driver/platform_rpi.cpp:78), so on that backend it is 0, which a reply carrying a zero byte models.
- The uninitialised CTRL3 image of `soft_reset` is a parameter (`leftover`, one byte per attempt), since the C code does not define it.

## Findings

| source | as written | input that shows it | evidently intended | confidence | as-written member | corrected member |
|---|---|---|---|---|---|---|
| src/hscdtd008a.c:486-508 | `status` is set to -1 before the polling loop but overwritten by every successful STATUS read, so after 50 polls without TRDY the function returns 0 | a chip that answers every transaction with status 0 and byte 0x00 | return -1 when TRDY never appears, as the comment at lines 487-488 says | high (not executed) | Driver.TemperatureCompensationAsWritten, Driver.TimeoutReportedAsSuccess | Driver.TemperatureCompensation |

=== FILE: bitfield.dfy ===
/** Register bit-fields.  The chip's registers are 8 bits wide, and every
    setting lives in a field of one register.  The exact bit positions are
    a property of the register header, so a field is kept abstract: the
    bits of `mask`, with the field's least significant bit at `shift`. */
module BitField {

  /** A bit position 0..7. */
  type Shift = bv3

  datatype Field = Field(mask: bv8, shift: Shift)

  /** The largest value the field holds, right-aligned. */
  function Ones(f: Field): bv8 {
    f.mask >> f.shift
  }

  /** A one-bit flag such as SRST or DRDY. */
  predicate IsFlag(f: Field) {
    f.mask == 1 << f.shift
  }

  /** Reads field `f` of register value `b`. */
  function Get(f: Field, b: bv8): bv8 {
    (b & f.mask) >> f.shift
  }

  /** `after` is `before` with only field `f` replaced by `v`: every bit
      outside the field is kept, and the field's bits hold `v` (truncated
      to the field's width, as a C bit-field assignment does). */
  predicate Replaces(f: Field, before: bv8, after: bv8, v: bv8) {
    && after & !f.mask == before & !f.mask
    && after & f.mask == (v << f.shift) & f.mask
  }

  /** Writes `v` into field `f` of `b`. */
  function Set(f: Field, b: bv8, v: bv8): (r: bv8)
    ensures Replaces(f, b, r, v)
  {
    Merge(f.mask, f.shift, b, v);
    (b & !f.mask) | ((v << f.shift) & f.mask)
  }

  lemma Merge(m: bv8, s: Shift, b: bv8, v: bv8)
    ensures ((b & !m) | ((v << s) & m)) & !m == b & !m
    ensures ((b & !m) | ((v << s) & m)) & m == (v << s) & m
  {
  }

  /** At most one value replaces a field: the read-modify-write result is
      determined by the value read and the value written. */
  lemma ReplacesUnique(f: Field, before: bv8, a1: bv8, a2: bv8, v: bv8)
    requires Replaces(f, before, a1, v)
    requires Replaces(f, before, a2, v)
    ensures a1 == a2
  {
    Recombine(f.mask, a1, a2);
  }

  lemma Recombine(m: bv8, a1: bv8, a2: bv8)
    requires a1 & !m == a2 & !m
    requires a1 & m == a2 & m
    ensures a1 == a2
  {
  }

  /** Reading a field back yields what was written, cut to the field's width. */
  lemma GetAfterReplace(f: Field, before: bv8, after: bv8, v: bv8)
    requires Replaces(f, before, after, v)
    ensures Get(f, after) == v & Ones(f)
  {
    ShiftBack(v, f.mask, f.shift);
  }

  lemma ShiftBack(v: bv8, m: bv8, s: Shift)
    ensures ((v << s) & m) >> s == v & (m >> s)
  {
  }

  /** A flag set to 1 reads back as 1. */
  lemma FlagReadsBack(f: Field, before: bv8, after: bv8)
    requires IsFlag(f)
    requires Replaces(f, before, after, 1)
    ensures Get(f, after) == 1
  {
    GetAfterReplace(f, before, after, 1);
    FlagOnes(f.shift);
  }

  lemma FlagOnes(s: Shift)
    ensures (1 << s) >> s == 1 as bv8
  {
  }

  /** Replacing a field leaves a field with disjoint bits unchanged. */
  lemma ReplaceKeepsOther(f: Field, g: Field, before: bv8, after: bv8, v: bv8)
    requires f.mask & g.mask == 0
    requires Replaces(f, before, after, v)
    ensures Get(g, after) == Get(g, before)
  {
    DisjointBits(f.mask, g.mask, before, after);
  }

  lemma DisjointBits(m: bv8, n: bv8, b: bv8, r: bv8)
    requires m & n == 0
    requires r & !m == b & !m
    ensures r & n == b & n
  {
  }

  /** A cleared register reads every field as zero. */
  lemma GetOfZero(f: Field)
    ensures Get(f, 0) == 0
  {
  }
}

=== FILE: checks.dfy ===
/** A fail-fast sequence of bus transactions, as the initialisation runs
    it: each transaction's reply is checked in turn, the first reply that
    fails its check decides the status, and no reply after it is consumed. */
module Checks {
  import opened Codec
  import opened Platform

  /** What a reply must be for the sequence to carry on past it: any
      byte, or one expected byte, a wrong byte giving its own status. */
  datatype Check = AnyByte | Expect(value: bv8, wrong: int8)

  predicate Passes(r: Reply, c: Check) {
    r.status == 0 && (c.Expect? ==> ByteOf(r) == c.value)
  }

  /** The status a reply that fails its check yields: the failed
      transaction's own status, or the check's status for a wrong byte. */
  function Verdict(r: Reply, c: Check): int8 {
    if r.status != 0 then r.status else if c.Expect? then c.wrong else 0
  }

  /** The index of the first reply from `b` that fails its check in `cs`,
      or `|cs|` when every reply passes. */
  function FirstFailing(b: Bus, cs: seq<Check>): (f: nat)
    ensures f <= |cs|
    ensures forall j :: 0 <= j < f ==> Passes(b.Peek(j), cs[j])
    ensures f < |cs| ==> !Passes(b.Peek(f), cs[f])
  {
    FailingFrom(b, cs, 0)
  }

  function FailingFrom(b: Bus, cs: seq<Check>, k: nat): (f: nat)
    requires k <= |cs|
    requires forall j :: 0 <= j < k ==> Passes(b.Peek(j), cs[j])
    ensures k <= f <= |cs|
    ensures forall j :: 0 <= j < f ==> Passes(b.Peek(j), cs[j])
    ensures f < |cs| ==> !Passes(b.Peek(f), cs[f])
    decreases |cs| - k
  {
    if k == |cs| || !Passes(b.Peek(k), cs[k]) then k else FailingFrom(b, cs, k + 1)
  }

  /** The first failing index is the only one with its defining property. */
  lemma FirstFailingIs(b: Bus, cs: seq<Check>, f: nat)
    requires f <= |cs|
    requires forall j :: 0 <= j < f ==> Passes(b.Peek(j), cs[j])
    requires f < |cs| ==> !Passes(b.Peek(f), cs[f])
    ensures FirstFailing(b, cs) == f
  {
  }

  /** `o` is what running the checks `cs` from `b` gives: the verdict of
      the first reply that fails, with no reply after it consumed; or
      success, with exactly one reply per check consumed. */
  predicate RunsChecks(b: Bus, cs: seq<Check>, o: Outcome) {
    var f := FirstFailing(b, cs);
    && Extends(b, o.bus)
    && (f == |cs| ==> o.status == 0 && o.bus.pos == b.pos + |cs|)
    && (f < |cs| ==> o.status == Verdict(b.Peek(f), cs[f]) && o.bus.pos == b.pos + f + 1)
  }

  /** A run that stops at its first reply. */
  lemma FailsFirst(b: Bus, c: Check, cs: seq<Check>, o: Outcome)
    requires !Passes(b.Peek(0), c)
    requires Extends(b, o.bus) && o.bus.pos == b.pos + 1 && o.status == Verdict(b.Peek(0), c)
    ensures RunsChecks(b, [c] + cs, o)
  {
    FirstFailingIs(b, [c] + cs, 0);
  }

  /** A run whose first reply passes is the run of the remaining checks
      from the next reply on. */
  lemma {:induction false} PassesFirst(b: Bus, next: Bus, c: Check, cs: seq<Check>, o: Outcome)
    requires Passes(b.Peek(0), c)
    requires next.script == b.script && next.pos == b.pos + 1 && b.log <= next.log
    requires RunsChecks(next, cs, o)
    ensures RunsChecks(b, [c] + cs, o)
  {
    var g := FirstFailing(next, cs);
    var all := [c] + cs;
    PeekShift(b, next, 1);
    forall j | 0 <= j < g + 1
      ensures Passes(b.Peek(j), all[j])
    {
      if j > 0 {
        assert b.Peek(j) == next.Peek(j - 1) && all[j] == cs[j - 1];
      }
    }
    if g < |cs| {
      assert b.Peek(g + 1) == next.Peek(g) && all[g + 1] == cs[g];
    }
    FirstFailingIs(b, all, g + 1);
  }

  /** A pause issues no transaction, so it does not change the run. */
  lemma {:induction false} SleepRuns(b: Bus, ms: nat, cs: seq<Check>, o: Outcome)
    requires RunsChecks(Sleep(b, ms), cs, o)
    ensures RunsChecks(b, cs, o)
  {
    var s := Sleep(b, ms);
    var f := FirstFailing(s, cs);
    PeekShift(b, s, 0);
    FirstFailingIs(b, cs, f);
  }

  /** A run stops at the reply that is the first to fail: its verdict is
      the status, and it is the last reply consumed. */
  lemma StopsAt(b: Bus, cs: seq<Check>, o: Outcome, f: nat)
    requires RunsChecks(b, cs, o)
    requires f < |cs| && !Passes(b.Peek(f), cs[f])
    requires forall j :: 0 <= j < f ==> Passes(b.Peek(j), cs[j])
    ensures o.status == Verdict(b.Peek(f), cs[f]) && o.bus.pos == b.pos + f + 1
  {
    FirstFailingIs(b, cs, f);
  }

  /** When no wrong byte is reported as success, a run succeeds exactly
      when every reply passes its check. */
  lemma SucceedsIff(b: Bus, cs: seq<Check>, o: Outcome)
    requires RunsChecks(b, cs, o)
    requires forall j :: 0 <= j < |cs| && cs[j].Expect? ==> cs[j].wrong != 0
    ensures o.status == 0 <==> forall j :: 0 <= j < |cs| ==> Passes(b.Peek(j), cs[j])
  {
    var f := FirstFailing(b, cs);
    if f < |cs| {
      assert !Passes(b.Peek(f), cs[f]);
    }
  }
}

=== FILE: codec.dfy ===
/** Number formats of the chip's data registers: TEMP is a signed byte,
    each axis is a signed 16-bit value stored low byte first. */
module Codec {

  /** Nanotesla per least significant bit at 15-bit resolution (0.150 uT). */
  const NT_PER_LSB: int := 150

  /** The C type `int8_t`, of statuses and of the TEMP reading. */
  type int8 = x: int | -0x80 <= x < 0x80

  predicate IsInt16(v: int) { -0x8000 <= v < 0x8000 }

  /** The two's-complement value of a byte. */
  function Int8(b: bv8): (v: int8)
    ensures v % 0x100 == b as int
    ensures v < 0 <==> b >= 0x80
  {
    HighBit(b);
    if b >= 0x80 then b as int - 0x100 else b as int
  }

  /** The byte whose two's-complement value is `v`. */
  function Int8Byte(v: int8): (b: bv8)
    ensures Int8(b) == v
  {
    ToByte(if v < 0 then v + 0x100 else v)
  }

  lemma Int8ByteOfInt8(b: bv8)
    ensures Int8Byte(Int8(b)) == b
  {
    ByteInjective(Int8Byte(Int8(b)), b);
  }

  /** The two's-complement value of the 16-bit word `hi:lo`. */
  function Int16(lo: bv8, hi: bv8): (v: int)
    ensures IsInt16(v)
    ensures v % 0x10000 == lo as int + 0x100 * hi as int
    ensures v < 0 <==> hi >= 0x80
  {
    var u := lo as int + 0x100 * hi as int;
    HighBit(hi);
    Wrap16(u);
    if u >= 0x8000 then u - 0x10000 else u
  }

  lemma HighBit(b: bv8)
    ensures b >= 0x80 <==> b as int >= 0x80
  {
  }

  lemma Wrap16(u: int)
    requires 0 <= u < 0x10000
    ensures (u - 0x10000) % 0x10000 == u
    ensures u % 0x10000 == u
  {
  }

  /** The little-endian bytes (low, high) of a signed 16-bit value. */
  function Int16Bytes(v: int): (b: (bv8, bv8))
    requires IsInt16(v)
    ensures Int16(b.0, b.1) == v
  {
    var u := if v < 0 then v + 0x10000 else v;
    var lo, hi := u % 0x100, u / 0x100;
    (ToByte(lo), ToByte(hi))
  }

  /** Distinct words have distinct values. */
  lemma Int16Injective(a: bv8, b: bv8, c: bv8, d: bv8)
    requires Int16(a, b) == Int16(c, d)
    ensures a == c && b == d
  {
    Digits(a as int, b as int, c as int, d as int);
    ByteInjective(a, c);
    ByteInjective(b, d);
  }

  lemma Int16BytesOfInt16(lo: bv8, hi: bv8)
    ensures Int16Bytes(Int16(lo, hi)) == (lo, hi)
  {
    var b := Int16Bytes(Int16(lo, hi));
    Int16Injective(b.0, b.1, lo, hi);
  }

  /** The byte holding `n`, as the C cast to `uint8_t` of an in-range
      value.  Built by counting up: the direct `n as bv8` conversion made
      proofs about its callers unstable from one solver seed to the next. */
  function ToByte(n: int): (b: bv8)
    requires 0 <= n < 0x100
    ensures b as int == n
  {
    if n == 0 then 0
    else
      var p := ToByte(n - 1);
      Succ(p);
      p + 1
  }

  lemma Succ(b: bv8)
    requires b != 0xFF
    ensures (b + 1) as int == b as int + 1
  {
  }

  lemma ByteInjective(a: bv8, b: bv8)
    requires a as int == b as int
    ensures a == b
  {
  }

  /** Base-256 digits are unique. */
  lemma Digits(lo1: int, hi1: int, lo2: int, hi2: int)
    requires 0 <= lo1 < 0x100 && 0 <= hi1 < 0x100 && 0 <= lo2 < 0x100 && 0 <= hi2 < 0x100
    requires lo1 + 0x100 * hi1 == lo2 + 0x100 * hi2
    ensures lo1 == lo2 && hi1 == hi2
  {
  }

  /** Three raw axis values, or a reading once scaled. */
  datatype Axes = Axes(x: int, y: int, z: int)

  predicate InRange(a: Axes) {
    IsInt16(a.x) && IsInt16(a.y) && IsInt16(a.z)
  }

  /** The six data bytes XOUT_L .. ZOUT_H that hold raw axes `a`. */
  function EncodeAxes(a: Axes): (buf: seq<bv8>)
    requires InRange(a)
    ensures |buf| == 6
  {
    var (x0, x1) := Int16Bytes(a.x);
    var (y0, y1) := Int16Bytes(a.y);
    var (z0, z1) := Int16Bytes(a.z);
    [x0, x1, y0, y1, z0, z1]
  }

  /** Axis i of the raw reading is the signed word buf[2i+1]:buf[2i]. */
  function DecodeAxes(buf: seq<bv8>): (a: Axes)
    requires |buf| == 6
    ensures InRange(a)
    ensures EncodeAxes(a) == buf
  {
    Int16BytesOfInt16(buf[0], buf[1]);
    Int16BytesOfInt16(buf[2], buf[3]);
    Int16BytesOfInt16(buf[4], buf[5]);
    Axes(Int16(buf[0], buf[1]), Int16(buf[2], buf[3]), Int16(buf[4], buf[5]))
  }

  lemma DecodeEncodeAxes(a: Axes)
    requires InRange(a)
    ensures DecodeAxes(EncodeAxes(a)) == a
  {
  }

  /** Converts raw counts to nanotesla. */
  function Scale(a: Axes): (m: Axes)
    ensures m.x % NT_PER_LSB == 0 && m.y % NT_PER_LSB == 0 && m.z % NT_PER_LSB == 0
    ensures Unscale(m) == a
  {
    Axes(a.x * NT_PER_LSB, a.y * NT_PER_LSB, a.z * NT_PER_LSB)
  }

  /** The raw counts behind a reading in nanotesla. */
  function Unscale(m: Axes): Axes {
    Axes(m.x / NT_PER_LSB, m.y / NT_PER_LSB, m.z / NT_PER_LSB)
  }
}

=== FILE: driver.dfy ===
/** The HSCDTD008A device-control protocol: the register setters, the
    CTRL3 triggers, the polling loops of a forced measurement and of a
    temperature compensation, and the initialisation sequence.  Every
    operation runs against the scripted bus of `Platform`; its contract
    says which status it returns and which events it issues, in terms of
    the replies the bus gives. */
module Driver {
  import opened BitField
  import opened Registers
  import opened Codec
  import opened Platform
  import opened Trace
  import opened Retry
  import opened Checks

  /** The identity WIA holds. */
  const WIA_VALUE: bv8 := 0x49
  /** SELFTEST_RESP after a self-test, on the first and second read. */
  const SELFTEST_FIRST: bv8 := 0xAA
  const SELFTEST_SECOND: bv8 := 0x55

  const POLL_ATTEMPTS: nat := 50

  const WRONG_DEVICE: int8 := -1
  const RESET_NOT_CLEARED: int8 := -1
  const MEASURE_TIMEOUT: int8 := -5
  const TEMP_TIMEOUT: int8 := -1
  const SELFTEST_FIRST_WRONG: int8 := -20
  const SELFTEST_SECOND_WRONG: int8 := -30

  predicate Ok(r: Reply) {
    r.status == 0
  }

  /** The two events of a read-modify-write of field `f` of `reg` that
      read `before`: the read, then a one-byte write of `before` with
      only `f` replaced by `v`. */
  predicate RmwEvents(ev: seq<Event>, reg: Reg, f: Field, before: bv8, v: bv8) {
    && |ev| == 2
    && ev[0] == Read(reg, 1)
    && ev[1].Write? && ev[1].reg == reg && |ev[1].bytes| == 1
    && Replaces(f, before, ev[1].bytes[0], v)
  }

  /** What a read-modify-write of field `f` of `reg` to `v` does: a failed
      read is returned as is and nothing is written; otherwise the patched
      byte is written and the write's status is returned. */
  predicate IsRmw(bus: Bus, reg: Reg, f: Field, v: bv8, o: Outcome) {
    && Extends(bus, o.bus)
    && (!Ok(bus.Peek(0)) ==>
          && o.status == bus.Peek(0).status
          && New(bus, o.bus) == [Read(reg, 1)]
          && o.bus.pos == bus.pos + 1)
    && (Ok(bus.Peek(0)) ==>
          && o.status == bus.Peek(1).status
          && RmwEvents(New(bus, o.bus), reg, f, ByteOf(bus.Peek(0)), v)
          && o.bus.pos == bus.pos + 2)
  }

  /** The read-modify-write every setter is made of. */
  function UpdateField(bus: Bus, reg: Reg, f: Field, v: bv8): (o: Outcome)
    ensures IsRmw(bus, reg, f, v, o)
  {
    var rd := ReadRegs(bus, reg, 1);
    if rd.status != 0 then Outcome(rd.status, rd.bus)
    else
      var wr := WriteRegs(rd.bus, reg, [Set(f, rd.data[0], v)]);
      PeekAfter(bus, rd.bus, 1, 0);
      NewConcat(bus, rd.bus, wr.bus);
      if wr.status != 0 then Outcome(wr.status, wr.bus) else Outcome(0, wr.bus)
  }

  /* ---------- CTRL1 ---------- */

  /** Power mode: stand-by or active. */
  function SetMode(bus: Bus, h: Layout, mode: bv8): (o: Outcome)
    ensures IsRmw(bus, Ctrl1, h.pc, mode, o)
  {
    UpdateField(bus, Ctrl1, h.pc, mode)
  }

  function SetOutputDataRate(bus: Bus, h: Layout, odr: bv8): (o: Outcome)
    ensures IsRmw(bus, Ctrl1, h.odr, odr, o)
  {
    UpdateField(bus, Ctrl1, h.odr, odr)
  }

  /** Normal or force state. */
  function SetState(bus: Bus, h: Layout, state: bv8): (o: Outcome)
    ensures IsRmw(bus, Ctrl1, h.fs, state, o)
  {
    UpdateField(bus, Ctrl1, h.fs, state)
  }

  /* ---------- CTRL2 ---------- */

  function SetFifoDataStorageMethod(bus: Bus, h: Layout, fco: bv8): (o: Outcome)
    ensures IsRmw(bus, Ctrl2, h.fco, fco, o)
  {
    UpdateField(bus, Ctrl2, h.fco, fco)
  }

  function SetFifoComparisonMethod(bus: Bus, h: Layout, aor: bv8): (o: Outcome)
    ensures IsRmw(bus, Ctrl2, h.aor, aor, o)
  {
    UpdateField(bus, Ctrl2, h.aor, aor)
  }

  function SetFifoEnable(bus: Bus, h: Layout, ff: bv8): (o: Outcome)
    ensures IsRmw(bus, Ctrl2, h.ff, ff, o)
  {
    UpdateField(bus, Ctrl2, h.ff, ff)
  }

  function SetDataReadyPinEnable(bus: Bus, h: Layout, den: bv8): (o: Outcome)
    ensures IsRmw(bus, Ctrl2, h.den, den, o)
  {
    UpdateField(bus, Ctrl2, h.den, den)
  }

  function SetDataReadyPinPolarity(bus: Bus, h: Layout, drp: bv8): (o: Outcome)
    ensures IsRmw(bus, Ctrl2, h.drp, drp, o)
  {
    UpdateField(bus, Ctrl2, h.drp, drp)
  }

  /* ---------- CTRL4 ---------- */

  /** 14- or 15-bit output. */
  function SetResolution(bus: Bus, h: Layout, rs: bv8): (o: Outcome)
    ensures IsRmw(bus, Ctrl4, h.rs, rs, o)
  {
    UpdateField(bus, Ctrl4, h.rs, rs)
  }

  /* ---------- Device functionality ---------- */

  /** Checks that WIA holds the device identity. */
  function WhoIAmCheck(bus: Bus): (o: Outcome)
    ensures Extends(bus, o.bus) && New(bus, o.bus) == [Read(Wia, 1)] && o.bus.pos == bus.pos + 1
    ensures o.status == 0 <==> Ok(bus.Peek(0)) && ByteOf(bus.Peek(0)) == WIA_VALUE
    ensures !Ok(bus.Peek(0)) ==> o.status == bus.Peek(0).status
    ensures Ok(bus.Peek(0)) && ByteOf(bus.Peek(0)) != WIA_VALUE ==> o.status == WRONG_DEVICE
  {
    var rd := ReadRegs(bus, Wia, 1);
    if rd.status != 0 then Outcome(rd.status, rd.bus)
    else if rd.data[0] != WIA_VALUE then Outcome(WRONG_DEVICE, rd.bus)
    else Outcome(0, rd.bus)
  }

  /** Starts the ADC offset calibration; completion is not awaited. */
  function OffsetCalibration(bus: Bus, h: Layout): (o: Outcome)
    ensures IsRmw(bus, Ctrl3, h.ocl, 1, o)
  {
    UpdateField(bus, Ctrl3, h.ocl, 1)
  }

  datatype TempOut = TempOut(temp: int8, bus: Bus)

  /** The signed TEMP register.  The read's status is not looked at: a
      failed read yields whatever byte the backend left behind. */
  function ReadTemp(bus: Bus): (t: TempOut)
    ensures Extends(bus, t.bus) && New(bus, t.bus) == [Read(Temp, 1)]
    ensures Int8Byte(t.temp) == ByteOf(bus.Peek(0))
  {
    var rd := ReadRegs(bus, Temp, 1);
    Int8ByteOfInt8(rd.data[0]);
    TempOut(Int8(rd.data[0]), rd.bus)
  }

  /** The answers SELFTEST_RESP must give, in order, after a self-test. */
  predicate ResponseOk(first: Reply, second: Reply) {
    && Ok(first) && ByteOf(first) == SELFTEST_FIRST
    && Ok(second) && ByteOf(second) == SELFTEST_SECOND
  }

  /** The two reads of SELFTEST_RESP that judge a self-test; the second
      is only issued when the first read 0xAA. */
  function CheckResponse(bus: Bus): (o: Outcome)
    ensures Extends(bus, o.bus)
    ensures var n := New(bus, o.bus);
      && 1 <= |n| <= 2 && n[0] == Read(SelftestResp, 1)
      && (|n| == 2 <==> Ok(bus.Peek(0)) && ByteOf(bus.Peek(0)) == SELFTEST_FIRST)
      && (|n| == 2 ==> n[1] == Read(SelftestResp, 1))
    ensures o.status == 0 <==> ResponseOk(bus.Peek(0), bus.Peek(1))
    ensures !Ok(bus.Peek(0)) ==> o.status == bus.Peek(0).status
    ensures Ok(bus.Peek(0)) && ByteOf(bus.Peek(0)) != SELFTEST_FIRST ==>
      o.status == SELFTEST_FIRST_WRONG
    ensures Ok(bus.Peek(0)) && ByteOf(bus.Peek(0)) == SELFTEST_FIRST ==>
      && (!Ok(bus.Peek(1)) ==> o.status == bus.Peek(1).status)
      && (Ok(bus.Peek(1)) && ByteOf(bus.Peek(1)) != SELFTEST_SECOND ==>
            o.status == SELFTEST_SECOND_WRONG)
  {
    var r1 := ReadRegs(bus, SelftestResp, 1);
    if r1.status != 0 then Outcome(r1.status, r1.bus)
    else if r1.data[0] != SELFTEST_FIRST then Outcome(SELFTEST_FIRST_WRONG, r1.bus)
    else
      var r2 := ReadRegs(r1.bus, SelftestResp, 1);
      PeekAfter(bus, r1.bus, 1, 0);
      NewConcat(bus, r1.bus, r2.bus);
      if r2.status != 0 then Outcome(r2.status, r2.bus)
      else if r2.data[0] != SELFTEST_SECOND then Outcome(SELFTEST_SECOND_WRONG, r2.bus)
      else Outcome(0, r2.bus)
  }

  /** Runs the chip's self-test: STC is set by a read-modify-write of
      CTRL3, and after 5 ms the responses are checked.  It succeeds
      exactly when every reply goes through and the responses are right. */
  function SelfTest(bus: Bus, h: Layout): (o: Outcome)
    ensures Extends(bus, o.bus)
    ensures o.status == 0 <==>
      Ok(bus.Peek(0)) && Ok(bus.Peek(1)) && ResponseOk(bus.Peek(2), bus.Peek(3))
  {
    var u := UpdateField(bus, Ctrl3, h.stc, 1);
    if u.status != 0 then u
    else
      var b := Sleep(u.bus, 5);
      var c := CheckResponse(b);
      PeekShift(bus, b, 2);
      NewConcat(bus, b, c.bus);
      Outcome(c.status, c.bus)
  }

  /** A self-test that passed issued the read-modify-write of CTRL3, the
      wait and the two response reads. */
  lemma {:induction false} SelfTestLog(bus: Bus, h: Layout)
    requires SelfTest(bus, h).status == 0
    ensures SelfTestEvents(New(bus, SelfTest(bus, h).bus), h, ByteOf(bus.Peek(0)))
  {
    var u := UpdateField(bus, Ctrl3, h.stc, 1);
    var b := Sleep(u.bus, 5);
    var c := CheckResponse(b);
    PeekAfter(bus, b, 2, 0);
    NewConcat(bus, u.bus, b);
    NewConcat(u.bus, b, c.bus);
    NewConcat(bus, u.bus, c.bus);
    var e := New(bus, c.bus);
    assert e[..2] == New(bus, u.bus);
    assert e[2..] == [Slept(5)] + New(b, c.bus);
  }

  /** The events of a self-test that passed, when CTRL3 read `ctrl3`. */
  predicate SelfTestEvents(e: seq<Event>, h: Layout, ctrl3: bv8) {
    && |e| == 5
    && RmwEvents(e[..2], Ctrl3, h.stc, ctrl3, 1)
    && e[2..] == [Slept(5), Read(SelftestResp, 1), Read(SelftestResp, 1)]
  }

  /** How a self-test fails: a failed read-modify-write is returned as
      is; otherwise the read-modify-write and the wait are followed by a
      failed read, which returns its status, a wrong first response, -20
      without a second read, or a wrong second response, -30. */
  lemma {:induction false} SelfTestFailures(bus: Bus, h: Layout)
    ensures var o := SelfTest(bus, h);
      && (!(Ok(bus.Peek(0)) && Ok(bus.Peek(1))) ==> IsRmw(bus, Ctrl3, h.stc, 1, o))
      && (Ok(bus.Peek(0)) && Ok(bus.Peek(1)) ==>
            && |New(bus, o.bus)| >= 4
            && RmwEvents(New(bus, o.bus)[..2], Ctrl3, h.stc, ByteOf(bus.Peek(0)), 1)
            && New(bus, o.bus)[2..4] == [Slept(5), Read(SelftestResp, 1)]
            && (!Ok(bus.Peek(2)) ==>
                  o.status == bus.Peek(2).status && |New(bus, o.bus)| == 4)
            && (Ok(bus.Peek(2)) && ByteOf(bus.Peek(2)) != SELFTEST_FIRST ==>
                  o.status == SELFTEST_FIRST_WRONG && |New(bus, o.bus)| == 4)
            && (Ok(bus.Peek(2)) && ByteOf(bus.Peek(2)) == SELFTEST_FIRST && !Ok(bus.Peek(3)) ==>
                  o.status == bus.Peek(3).status && |New(bus, o.bus)| == 5 &&
                  New(bus, o.bus)[4] == Read(SelftestResp, 1))
            && (Ok(bus.Peek(2)) && ByteOf(bus.Peek(2)) == SELFTEST_FIRST &&
                Ok(bus.Peek(3)) && ByteOf(bus.Peek(3)) != SELFTEST_SECOND ==>
                  o.status == SELFTEST_SECOND_WRONG && |New(bus, o.bus)| == 5 &&
                  New(bus, o.bus)[4] == Read(SelftestResp, 1)))
  {
    var u := UpdateField(bus, Ctrl3, h.stc, 1);
    if u.status == 0 {
      var b := Sleep(u.bus, 5);
      var c := CheckResponse(b);
      PeekAfter(bus, b, 2, 0);
      PeekAfter(bus, b, 2, 1);
      NewConcat(bus, u.bus, b);
      NewConcat(bus, b, c.bus);
      assert New(bus, c.bus)[..2] == New(bus, u.bus);
    }
  }

  /** Soft reset: CTRL3 is written with SRST set and no prior read (its
      other bits are whatever `leftover` holds, the C code leaving the
      register image uninitialised), then read back after 5 ms; SRST must
      have cleared. */
  function SoftReset(bus: Bus, h: Layout, leftover: bv8): (o: Outcome)
    ensures Extends(bus, o.bus)
    ensures var n := New(bus, o.bus);
      && 1 <= |n|
      && n[0].Write? && n[0].reg == Ctrl3 && |n[0].bytes| == 1
      && Replaces(h.srst, leftover, n[0].bytes[0], 1)
      && (!Ok(bus.Peek(0)) ==> |n| == 1 && o.status == bus.Peek(0).status)
      && (Ok(bus.Peek(0)) ==> n[1..] == [Slept(5), Read(Ctrl3, 1)])
    ensures Ok(bus.Peek(0)) && !Ok(bus.Peek(1)) ==> o.status == bus.Peek(1).status
    ensures o.status == 0 <==>
      Ok(bus.Peek(0)) && Ok(bus.Peek(1)) && Get(h.srst, ByteOf(bus.Peek(1))) != 1
    ensures Ok(bus.Peek(0)) && Ok(bus.Peek(1)) ==>
      (o.status == RESET_NOT_CLEARED <==> Get(h.srst, ByteOf(bus.Peek(1))) == 1)
  {
    var wr := WriteRegs(bus, Ctrl3, [Set(h.srst, leftover, 1)]);
    if wr.status != 0 then Outcome(wr.status, wr.bus)
    else
      var b := Sleep(wr.bus, 5);
      var rd := ReadRegs(b, Ctrl3, 1);
      PeekAfter(bus, b, 1, 0);
      NewConcat(bus, wr.bus, b);
      NewConcat(bus, b, rd.bus);
      if rd.status != 0 then Outcome(rd.status, rd.bus)
      else if Get(h.srst, rd.data[0]) == 1 then Outcome(RESET_NOT_CLEARED, rd.bus)
      else Outcome(0, rd.bus)
  }

  /** The reading in nanotesla is exactly `data` decoded: 150 nT times
      the signed axes whose little-endian encoding is the six bytes. */
  predicate Decodes(mag: Axes, data: seq<bv8>) {
    && InRange(Unscale(mag))
    && Scale(Unscale(mag)) == mag
    && EncodeAxes(Unscale(mag)) == Fill(data, 6)
  }

  datatype MagOut = MagOut(status: int8, mag: Axes, bus: Bus)

  /** Reads XOUT_L .. ZOUT_H in one transaction and decodes them; on a
      failed read the caller's reading `prev` is left untouched. */
  function ReadMagnetodata(bus: Bus, prev: Axes): (r: MagOut)
    ensures Extends(bus, r.bus) && New(bus, r.bus) == [Read(XoutL, 6)]
    ensures r.status == bus.Peek(0).status
    ensures r.status != 0 ==> r.mag == prev
    ensures r.status == 0 ==> Decodes(r.mag, bus.Peek(0).data)
  {
    var rd := ReadRegs(bus, XoutL, 6);
    if rd.status != 0 then MagOut(rd.status, prev, rd.bus)
    else
      var raw := DecodeAxes(rd.data);
      MagOut(0, Scale(raw), rd.bus)
  }

  /* ---------- Temperature compensation ---------- */

  /** One wait of the temperature loop: 1 ms, then a STATUS read. */
  const TempWait: seq<Event> := [Slept(1), Read(Stat, 1)]

  /** What at most `n` polls for TRDY on `bus` do, when a timeout is
      reported as `timeout`.  With `k` the first poll that fails or finds
      TRDY: every poll up to and including `k` issues `TempWait`; a failed
      poll returns its status; a poll that finds TRDY reads TEMP (its
      status ignored) and succeeds; when there is no such poll the
      timeout is reported after all `n`. */
  predicate IsTempPoll(bus: Bus, h: Layout, n: nat, timeout: int8, o: Outcome) {
    var k := FirstStop(bus, h.trdy, 0, n);
    if k == n then o == Outcome(timeout, Waited(bus, TempWait, n))
    else if !Ok(bus.Peek(k)) then o == Outcome(bus.Peek(k).status, Waited(bus, TempWait, k + 1))
    else o == Outcome(0, ReadTemp(Waited(bus, TempWait, k + 1)).bus)
  }

  /** The polling loop of `temperature_compensation` with the intended
      timeout: when TRDY never shows, TEMP_TIMEOUT. */
  function AwaitTemperature(bus: Bus, h: Layout, n: nat): (o: Outcome)
    ensures IsTempPoll(bus, h, n, TEMP_TIMEOUT, o)
    decreases n
  {
    if n == 0 then Outcome(TEMP_TIMEOUT, bus)
    else
      var rd := ReadRegs(Sleep(bus, 1), Stat, 1);
      PollStep(bus, h, n, TEMP_TIMEOUT);
      if rd.status != 0 then Outcome(rd.status, rd.bus)
      else if Get(h.trdy, rd.data[0]) == 1 then Outcome(0, ReadTemp(rd.bus).bus)
      else
        var o := AwaitTemperature(rd.bus, h, n - 1);
        PollContinues(bus, h, n, TEMP_TIMEOUT, o);
        o
  }

  /** The polling loop as written: `status` holds -1 before the loop and
      every poll's read status after it, so a loop that never sees TRDY
      returns the 0 of its last successful read. */
  function AwaitTemperatureAsWritten(bus: Bus, h: Layout, n: nat, status: int8): (o: Outcome)
    ensures IsTempPoll(bus, h, n, if n == 0 then status else 0, o)
    decreases n
  {
    if n == 0 then Outcome(status, bus)
    else
      var rd := ReadRegs(Sleep(bus, 1), Stat, 1);
      PollStep(bus, h, n, 0);
      if rd.status != 0 then Outcome(rd.status, rd.bus)
      else if Get(h.trdy, rd.data[0]) == 1 then Outcome(0, ReadTemp(rd.bus).bus)
      else
        var o := AwaitTemperatureAsWritten(rd.bus, h, n - 1, rd.status);
        PollContinues(bus, h, n, 0, o);
        o
  }

  /** The first poll issues one wait, and when it fails or sees TRDY the
      run stops there. */
  lemma PollStep(bus: Bus, h: Layout, n: nat, timeout: int8)
    requires 0 < n
    ensures ReadRegs(Sleep(bus, 1), Stat, 1).bus == Waited(bus, TempWait, 1)
    ensures ReadRegs(Sleep(bus, 1), Stat, 1).data[0] == ByteOf(bus.Peek(0))
    ensures !Ok(bus.Peek(0)) ==>
      IsTempPoll(bus, h, n, timeout, Outcome(bus.Peek(0).status, Waited(bus, TempWait, 1)))
    ensures Ok(bus.Peek(0)) && Get(h.trdy, ByteOf(bus.Peek(0))) == 1 ==>
      IsTempPoll(bus, h, n, timeout, Outcome(0, ReadTemp(Waited(bus, TempWait, 1)).bus))
  {
    assert Repeat(TempWait, 1) == TempWait;
    assert bus.log + [Slept(1)] + [Read(Stat, 1)] == bus.log + TempWait;
  }

  /** After a quiet first poll, the run is the run of the remaining polls
      on the bus that has issued it. */
  lemma PollContinues(bus: Bus, h: Layout, n: nat, timeout: int8, o: Outcome)
    requires 0 < n && QuietAt(bus, h.trdy, 0, 0)
    requires IsTempPoll(Waited(bus, TempWait, 1), h, n - 1, timeout, o)
    ensures IsTempPoll(bus, h, n, timeout, o)
  {
    var after := Waited(bus, TempWait, 1);
    FirstStopStep(bus, after, h.trdy, n);
    var k := FirstStop(after, h.trdy, 0, n - 1);
    assert FirstStop(bus, h.trdy, 0, n) == k + 1;
    if k == n - 1 {
      WaitedAfterOne(bus, TempWait, k);
    } else {
      PeekAfter(bus, after, 1, k);
      WaitedAfterOne(bus, TempWait, k + 1);
    }
  }

  /** `temperature_compensation`, corrected: TCS is set by a
      read-modify-write of CTRL3, then STATUS is polled up to 50 times. */
  function TemperatureCompensation(bus: Bus, h: Layout): (o: Outcome)
    ensures var u := UpdateField(bus, Ctrl3, h.tcs, 1);
      && (u.status != 0 ==> o == u)
      && (u.status == 0 ==> IsTempPoll(u.bus, h, POLL_ATTEMPTS, TEMP_TIMEOUT, o))
    ensures o.status == 0 <==>
      var u := UpdateField(bus, Ctrl3, h.tcs, 1);
      var k := FirstStop(u.bus, h.trdy, 0, POLL_ATTEMPTS);
      u.status == 0 && k < POLL_ATTEMPTS && Ok(u.bus.Peek(k))
  {
    var u := UpdateField(bus, Ctrl3, h.tcs, 1);
    if u.status != 0 then u else AwaitTemperature(u.bus, h, POLL_ATTEMPTS)
  }

  /** `temperature_compensation` as written. */
  function TemperatureCompensationAsWritten(bus: Bus, h: Layout): (o: Outcome)
    ensures var u := UpdateField(bus, Ctrl3, h.tcs, 1);
      && (u.status != 0 ==> o == u)
      && (u.status == 0 ==> IsTempPoll(u.bus, h, POLL_ATTEMPTS, 0, o))
    ensures o.status == 0 <==>
      var u := UpdateField(bus, Ctrl3, h.tcs, 1);
      var k := FirstStop(u.bus, h.trdy, 0, POLL_ATTEMPTS);
      u.status == 0 && (k == POLL_ATTEMPTS || Ok(u.bus.Peek(k)))
  {
    var u := UpdateField(bus, Ctrl3, h.tcs, 1);
    if u.status != 0 then u else AwaitTemperatureAsWritten(u.bus, h, POLL_ATTEMPTS, TEMP_TIMEOUT)
  }

  /** A device that answers every transaction with success and a zero
      byte never raises TRDY: the compensation as written reports
      success, the corrected one the timeout. */
  lemma TimeoutReportedAsSuccess(bus: Bus, h: Layout)
    requires bus.pos + 2 + POLL_ATTEMPTS <= |bus.script|
    requires forall i :: bus.pos <= i < |bus.script| ==> bus.script[i] == Reply(0, [0])
    ensures FirstStop(UpdateField(bus, Ctrl3, h.tcs, 1).bus, h.trdy, 0, POLL_ATTEMPTS) == POLL_ATTEMPTS
    ensures TemperatureCompensationAsWritten(bus, h).status == 0
    ensures TemperatureCompensation(bus, h).status == TEMP_TIMEOUT
  {
    var u := UpdateField(bus, Ctrl3, h.tcs, 1);
    assert bus.Peek(0) == Reply(0, [0]) && bus.Peek(1) == Reply(0, [0]);
    GetOfZero(h.trdy);
    forall j | 0 <= j < POLL_ATTEMPTS
      ensures QuietAt(u.bus, h.trdy, 0, j)
    {
      assert u.bus.Peek(0 + j) == bus.script[bus.pos + 2 + j];
    }
    FirstStopIs(u.bus, h.trdy, 0, POLL_ATTEMPTS, POLL_ATTEMPTS);
  }

  /* ---------- Forced measurement ---------- */

  /** One wait of the measurement loop: a STATUS read that finds DRDY
      clear, then 1 ms. */
  const MeasureWait: seq<Event> := [Read(Stat, 1), Slept(1)]

  /** The start of `measure`: STATUS is read to clear it, then FRC is set
      by a read-modify-write of CTRL3.  The first failure is returned. */
  function StartForced(bus: Bus, h: Layout): (o: Outcome)
    ensures Extends(bus, o.bus)
    ensures !Ok(bus.Peek(0)) ==>
      o.status == bus.Peek(0).status && New(bus, o.bus) == [Read(Stat, 1)]
    ensures Ok(bus.Peek(0)) ==>
      var b := ReadRegs(bus, Stat, 1).bus;
      IsRmw(b, Ctrl3, h.frc, 1, o) && New(bus, o.bus) == [Read(Stat, 1)] + New(b, o.bus)
    ensures o.status == 0 <==> Ok(bus.Peek(0)) && Ok(bus.Peek(1)) && Ok(bus.Peek(2))
    ensures o.status == 0 ==> o.bus.pos == bus.pos + 3
  {
    var rd := ReadRegs(bus, Stat, 1);
    if rd.status != 0 then Outcome(rd.status, rd.bus)
    else
      var u := UpdateField(rd.bus, Ctrl3, h.frc, 1);
      PeekAfter(bus, rd.bus, 1, 0);
      PeekAfter(bus, rd.bus, 1, 1);
      NewConcat(bus, rd.bus, u.bus);
      u
  }

  /** The waiting loop of `measure`, in closed form, started on `start`.
      With `k` the first of the 50 polls that fails or finds DRDY, every
      earlier poll issued `MeasureWait`; poll `k` ends the loop with its
      read status, which is 0 exactly when it found DRDY.  When there is
      no such poll the timeout is reported after all 50 waits. */
  function DrdyPoll(start: Bus, h: Layout): (o: Outcome) {
    var k := FirstStop(start, h.drdy, 0, POLL_ATTEMPTS);
    if k == POLL_ATTEMPTS then Outcome(MEASURE_TIMEOUT, Waited(start, MeasureWait, k))
    else Outcome(start.Peek(k).status, ReadRegs(Waited(start, MeasureWait, k), Stat, 1).bus)
  }

  /** What `measure` does once the measurement started on `start`: the
      waiting loop, then, when it ended on DRDY, the data read.  The
      caller's reading survives every failure. */
  predicate MeasuredAfter(start: Bus, h: Layout, prev: Axes, r: MagOut) {
    var o := DrdyPoll(start, h);
    if o.status != 0 then r == MagOut(o.status, prev, o.bus)
    else r == ReadMagnetodata(o.bus, prev)
  }

  /** `measure`: start a forced measurement, wait for DRDY, read the
      data.  The caller's reading `prev` changes only on success. */
  method Measure(bus: Bus, h: Layout, prev: Axes) returns (r: MagOut)
    ensures Extends(bus, r.bus)
    ensures var s := StartForced(bus, h);
      && (s.status != 0 ==> r == MagOut(s.status, prev, s.bus))
      && (s.status == 0 ==> MeasuredAfter(s.bus, h, prev, r))
    ensures r.status != 0 ==> r.mag == prev
    ensures Reads(New(bus, r.bus), Stat) <= 1 + POLL_ATTEMPTS
  {
    var s := StartForced(bus, h);
    StartForcedReads(bus, h);
    if s.status != 0 {
      return MagOut(s.status, prev, s.bus);
    }
    var o := AwaitDataReady(s.bus, h);
    if o.status != 0 {
      r := MagOut(o.status, prev, o.bus);
    } else {
      r := ReadMagnetodata(o.bus, prev);
    }
    PollEvents(s.bus, h, prev, r);
    NewConcat(bus, s.bus, r.bus);
    MeasurePollsBounded(s.bus, h, prev, r);
    ReadsAppend(New(bus, s.bus), New(s.bus, r.bus), Stat);
  }

  /** The start of `measure` reads STATUS once. */
  lemma StartForcedReads(bus: Bus, h: Layout)
    ensures Reads(New(bus, StartForced(bus, h).bus), Stat) == 1
  {
    var o := StartForced(bus, h);
    var e := New(bus, o.bus);
    if !Ok(bus.Peek(0)) {
      assert e[1..] == [];
    } else {
      var b := ReadRegs(bus, Stat, 1).bus;
      var t := New(b, o.bus);
      assert e[1..] == t;
      if |t| == 1 {
        assert t[1..] == [];
      } else {
        assert t[1..][1..] == [];
        assert Reads(t[1..], Stat) == 0;
      }
      assert Reads(t, Stat) == 0;
    }
  }

  /** The waiting loop of `measure`, started on `start`. */
  method AwaitDataReady(start: Bus, h: Layout) returns (o: Outcome)
    ensures o == DrdyPoll(start, h)
  {
    var b := start;
    var i := 0;
    while i < POLL_ATTEMPTS
      invariant i <= POLL_ATTEMPTS
      invariant forall j :: 0 <= j < i ==> QuietAt(start, h.drdy, 0, j)
      invariant b == Waited(start, MeasureWait, i)
    {
      var rd := ReadRegs(b, Stat, 1);
      MeasureStep(start, i);
      if rd.status != 0 || Get(h.drdy, rd.data[0]) == 1 {
        FirstStopIs(start, h.drdy, 0, POLL_ATTEMPTS, i);
        return Outcome(rd.status, rd.bus);
      }
      assert QuietAt(start, h.drdy, 0, i);
      b := Sleep(rd.bus, 1);
      i := i + 1;
    }
    FirstStopIs(start, h.drdy, 0, POLL_ATTEMPTS, POLL_ATTEMPTS);
    o := Outcome(MEASURE_TIMEOUT, b);
  }

  /** Poll `i` reads the reply `i` places on, and a quiet poll ends one
      wait further on. */
  lemma MeasureStep(start: Bus, i: nat)
    ensures var rd := ReadRegs(Waited(start, MeasureWait, i), Stat, 1);
      && rd.status == start.Peek(i).status
      && rd.data[0] == ByteOf(start.Peek(i))
      && Sleep(rd.bus, 1) == Waited(start, MeasureWait, i + 1)
  {
    var b := Waited(start, MeasureWait, i);
    PeekAfter(start, b, i, 0);
    WaitedThenOne(start, MeasureWait, i);
    assert b.log + [Read(Stat, 1)] + [Slept(1)] == b.log + MeasureWait;
  }

  /** The events of the polling, case by case. */
  lemma PollEvents(start: Bus, h: Layout, prev: Axes, r: MagOut)
    requires MeasuredAfter(start, h, prev, r)
    ensures Extends(start, r.bus)
    ensures var k := FirstStop(start, h.drdy, 0, POLL_ATTEMPTS);
      New(start, r.bus) == Repeat(MeasureWait, k) + PollTail(k < POLL_ATTEMPTS, Ok(start.Peek(k)))
  {
    var k := FirstStop(start, h.drdy, 0, POLL_ATTEMPTS);
    var w := Waited(start, MeasureWait, k);
    var tail := PollTail(k < POLL_ATTEMPTS, Ok(start.Peek(k)));
    if k == POLL_ATTEMPTS {
      assert New(start, r.bus) == Repeat(MeasureWait, k) + tail;
    } else {
      var polled := ReadRegs(w, Stat, 1).bus;
      NewConcat(start, w, polled);
      if Ok(start.Peek(k)) {
        NewConcat(start, polled, r.bus);
        assert New(start, r.bus) == Repeat(MeasureWait, k) + [Read(Stat, 1)] + [Read(XoutL, 6)];
      }
    }
  }

  /** What follows the quiet polls: nothing after a timeout, the failed
      STATUS read, or the STATUS read that found DRDY and the data read. */
  function PollTail(stopped: bool, ready: bool): seq<Event> {
    if !stopped then []
    else if !ready then [Read(Stat, 1)]
    else [Read(Stat, 1), Read(XoutL, 6)]
  }

  /** `measure` reads STATUS at most 50 times while waiting. */
  lemma {:induction false} MeasurePollsBounded(start: Bus, h: Layout, prev: Axes, r: MagOut)
    requires MeasuredAfter(start, h, prev, r)
    ensures Reads(New(start, r.bus), Stat) <= POLL_ATTEMPTS
  {
    var k := FirstStop(start, h.drdy, 0, POLL_ATTEMPTS);
    var tail := PollTail(k < POLL_ATTEMPTS, Ok(start.Peek(k)));
    PollEvents(start, h, prev, r);
    WaitReads(k);
    TailReads(k < POLL_ATTEMPTS, Ok(start.Peek(k)));
    ReadsAppend(Repeat(MeasureWait, k), tail, Stat);
  }

  /** The data registers are read exactly when a poll found DRDY, and then
      once. */
  lemma {:induction false} DataReadOnlyWhenReady(start: Bus, h: Layout, prev: Axes, r: MagOut)
    requires MeasuredAfter(start, h, prev, r)
    ensures var k := FirstStop(start, h.drdy, 0, POLL_ATTEMPTS);
      Reads(New(start, r.bus), XoutL) == if k < POLL_ATTEMPTS && Ok(start.Peek(k)) then 1 else 0
  {
    var k := FirstStop(start, h.drdy, 0, POLL_ATTEMPTS);
    var tail := PollTail(k < POLL_ATTEMPTS, Ok(start.Peek(k)));
    PollEvents(start, h, prev, r);
    WaitReads(k);
    TailReads(k < POLL_ATTEMPTS, Ok(start.Peek(k)));
    ReadsAppend(Repeat(MeasureWait, k), tail, XoutL);
  }

  /** `k` waits read STATUS `k` times and never the data registers. */
  lemma WaitReads(k: nat)
    ensures Reads(Repeat(MeasureWait, k), Stat) == k
    ensures Reads(Repeat(MeasureWait, k), XoutL) == 0
  {
    ReadsRepeat(MeasureWait, k, Stat);
    ReadsRepeat(MeasureWait, k, XoutL);
    assert MeasureWait[1..] == [Slept(1)];
  }

  lemma TailReads(stopped: bool, ready: bool)
    ensures Reads(PollTail(stopped, ready), Stat) == if stopped then 1 else 0
    ensures Reads(PollTail(stopped, ready), XoutL) == if stopped && ready then 1 else 0
  {
    if stopped && ready {
      var tail := [Read(Stat, 1), Read(XoutL, 6)];
      assert tail[1..][1..] == [];
    }
  }

  /* ---------- Initialisation ---------- */

  /** The replies a working chip gives the last two steps: the CTRL1
      read-modify-write and the CTRL3 read-modify-write of the self-test
      go through, and SELFTEST_RESP reads 0xAA then 0x55. */
  predicate Activatable(a: Bus) {
    && Ok(a.Peek(0)) && Ok(a.Peek(1))
    && Ok(a.Peek(2)) && Ok(a.Peek(3))
    && ResponseOk(a.Peek(4), a.Peek(5))
  }

  /** ... before them the CTRL4 read-modify-write goes through ... */
  predicate Configurable(c: Bus) {
    Ok(c.Peek(0)) && Ok(c.Peek(1)) && Activatable(c.(pos := c.pos + 2))
  }

  /** ... and before that, WIA reads 0x49. */
  predicate Healthy(b: Bus) {
    Ok(b.Peek(0)) && ByteOf(b.Peek(0)) == WIA_VALUE && Configurable(b.(pos := b.pos + 1))
  }

  /** The events of going active and self-testing, when CTRL1 read
      `ctrl1` and CTRL3 read `ctrl3`. */
  predicate ActivateEvents(e: seq<Event>, h: Layout, ctrl1: bv8, ctrl3: bv8) {
    && |e| == 7
    && RmwEvents(e[..2], Ctrl1, h.pc, ctrl1, h.modeActive)
    && SelfTestEvents(e[2..], h, ctrl3)
  }

  /** ... preceded by selecting the resolution, when CTRL4 read `ctrl4`. */
  predicate ConfigureEvents(e: seq<Event>, h: Layout, ctrl4: bv8, ctrl1: bv8, ctrl3: bv8) {
    && |e| == 9
    && RmwEvents(e[..2], Ctrl4, h.rs, ctrl4, h.resolution15Bit)
    && ActivateEvents(e[2..], h, ctrl1, ctrl3)
  }

  /** ... preceded by the identity check: the events of a bring-up on
      `b` that went through. */
  predicate BringupEvents(e: seq<Event>, b: Bus, h: Layout) {
    && |e| == 10
    && e[0] == Read(Wia, 1)
    && ConfigureEvents(e[1..], h, ByteOf(b.Peek(1)), ByteOf(b.Peek(3)), ByteOf(b.Peek(5)))
  }

  lemma JoinActivate(x: seq<Event>, y: seq<Event>, h: Layout, ctrl1: bv8, ctrl3: bv8)
    requires RmwEvents(x, Ctrl1, h.pc, ctrl1, h.modeActive) && SelfTestEvents(y, h, ctrl3)
    ensures ActivateEvents(x + y, h, ctrl1, ctrl3)
  {
    assert (x + y)[..2] == x && (x + y)[2..] == y;
  }

  lemma JoinConfigure(x: seq<Event>, y: seq<Event>, h: Layout, ctrl4: bv8, ctrl1: bv8, ctrl3: bv8)
    requires RmwEvents(x, Ctrl4, h.rs, ctrl4, h.resolution15Bit) && ActivateEvents(y, h, ctrl1, ctrl3)
    ensures ConfigureEvents(x + y, h, ctrl4, ctrl1, ctrl3)
  {
    assert (x + y)[..2] == x && (x + y)[2..] == y;
  }

  /** Two buses at the same point of the same script give the same
      replies, whatever they logged. */
  lemma SameReplies(b1: Bus, b2: Bus)
    requires b1.script == b2.script && b1.pos == b2.pos
    ensures Activatable(b1) == Activatable(b2)
    ensures Configurable(b1) == Configurable(b2)
  {
  }

  /** The replies the initialisation checks, in the order it issues the
      transactions: WIA must read 0x49; the read and the write of CTRL4,
      then of CTRL1, then of CTRL3 must go through; SELFTEST_RESP must read
      0xAA, then 0x55.  A wrong byte has its own status. */
  const RESPONSE_CHECKS: seq<Check> :=
    [Expect(SELFTEST_FIRST, SELFTEST_FIRST_WRONG), Expect(SELFTEST_SECOND, SELFTEST_SECOND_WRONG)]
  const SELFTEST_CHECKS: seq<Check> := [AnyByte, AnyByte] + RESPONSE_CHECKS
  const ACTIVATE_CHECKS: seq<Check> := [AnyByte, AnyByte] + SELFTEST_CHECKS
  const CONFIGURE_CHECKS: seq<Check> := [AnyByte, AnyByte] + ACTIVATE_CHECKS
  const BRINGUP_CHECKS: seq<Check> := [Expect(WIA_VALUE, WRONG_DEVICE)] + CONFIGURE_CHECKS

  /** The response reads stop at the first wrong or failed reply. */
  lemma {:induction false} CheckResponseRuns(bus: Bus)
    ensures RunsChecks(bus, RESPONSE_CHECKS, CheckResponse(bus))
  {
    var o := CheckResponse(bus);
    var first, second := RESPONSE_CHECKS[0], RESPONSE_CHECKS[1];
    assert RESPONSE_CHECKS == [first] + [second];
    var r1 := ReadRegs(bus, SelftestResp, 1);
    if !Passes(bus.Peek(0), first) {
      FailsFirst(bus, first, [second], o);
    } else {
      var r2 := ReadRegs(r1.bus, SelftestResp, 1);
      if !Passes(r1.bus.Peek(0), second) {
        FailsFirst(r1.bus, second, [], o);
      } else {
        assert FirstFailing(r1.bus, [second]) == 1;
      }
      PassesFirst(bus, r1.bus, first, [second], o);
    }
  }

  /** A read-modify-write that fails stops the run at its read or its
      write; one that goes through hands over to what follows. */
  lemma {:induction false} RmwRuns(bus: Bus, reg: Reg, f: Field, v: bv8, u: Outcome, cs: seq<Check>, o: Outcome)
    requires IsRmw(bus, reg, f, v, u)
    requires u.status != 0 ==> o == u
    requires u.status == 0 ==> RunsChecks(u.bus, cs, o)
    ensures RunsChecks(bus, [AnyByte, AnyByte] + cs, o)
  {
    assert [AnyByte, AnyByte] + cs == [AnyByte] + ([AnyByte] + cs);
    if !Ok(bus.Peek(0)) {
      FailsFirst(bus, AnyByte, [AnyByte] + cs, u);
    } else {
      var mid := bus.(pos := bus.pos + 1);
      assert mid.Peek(0) == bus.Peek(1);
      if !Ok(bus.Peek(1)) {
        FailsFirst(mid, AnyByte, cs, u);
      } else {
        PassesFirst(mid, u.bus, AnyByte, cs, o);
      }
      PassesFirst(bus, mid, AnyByte, [AnyByte] + cs, o);
    }
  }

  /** The self-test stops at the first failed transaction or wrong
      response. */
  lemma {:induction false} SelfTestRuns(bus: Bus, h: Layout)
    ensures RunsChecks(bus, SELFTEST_CHECKS, SelfTest(bus, h))
  {
    var u := UpdateField(bus, Ctrl3, h.stc, 1);
    if u.status == 0 {
      var b := Sleep(u.bus, 5);
      CheckResponseRuns(b);
      SleepRuns(u.bus, 5, RESPONSE_CHECKS, CheckResponse(b));
    }
    RmwRuns(bus, Ctrl3, h.stc, 1, u, RESPONSE_CHECKS, SelfTest(bus, h));
  }

  /** Going active, then self-testing, stops at the first failure of
      either. */
  lemma {:induction false} ActivateRuns(a: Bus, h: Layout, o: Outcome)
    requires var m := SetMode(a, h, h.modeActive);
      if m.status != 0 then o == m else o == SelfTest(m.bus, h)
    ensures RunsChecks(a, ACTIVATE_CHECKS, o)
  {
    var m := SetMode(a, h, h.modeActive);
    if m.status == 0 {
      SelfTestRuns(m.bus, h);
    }
    RmwRuns(a, Ctrl1, h.pc, h.modeActive, m, SELFTEST_CHECKS, o);
  }

  /** Going active, then the self-test; the first failure is returned. */
  method Activate(a: Bus, h: Layout) returns (o: Outcome)
    ensures Extends(a, o.bus)
    ensures o.status == 0 <==> Activatable(a)
    ensures o.status == 0 ==>
      ActivateEvents(New(a, o.bus), h, ByteOf(a.Peek(0)), ByteOf(a.Peek(2)))
    ensures !Ok(a.Peek(0)) ==> o.status == a.Peek(0).status
    ensures RunsChecks(a, ACTIVATE_CHECKS, o)
  {
    var m := SetMode(a, h, h.modeActive);
    if m.status != 0 {
      ActivateRuns(a, h, m);
      return m;
    }
    var t := SelfTest(m.bus, h);
    ActivateRuns(a, h, t);
    assert m.bus.Peek(0) == a.Peek(2) && m.bus.Peek(1) == a.Peek(3)
        && m.bus.Peek(2) == a.Peek(4) && m.bus.Peek(3) == a.Peek(5) by {
      PeekShift(a, m.bus, 2);
    }
    NewConcat(a, m.bus, t.bus);
    o := t;
    if t.status == 0 {
      SelfTestLog(m.bus, h);
      JoinActivate(New(a, m.bus), New(m.bus, t.bus), h, ByteOf(a.Peek(0)), ByteOf(a.Peek(2)));
    }
  }

  /** The configuration part of `initialize`: select 15-bit output, then
      activate. */
  method Configure(c: Bus, h: Layout) returns (o: Outcome)
    ensures Extends(c, o.bus)
    ensures o.status == 0 <==> Configurable(c)
    ensures o.status == 0 ==>
      ConfigureEvents(New(c, o.bus), h, ByteOf(c.Peek(0)), ByteOf(c.Peek(2)), ByteOf(c.Peek(4)))
    ensures !Ok(c.Peek(0)) ==> o.status == c.Peek(0).status
    ensures RunsChecks(c, CONFIGURE_CHECKS, o)
  {
    var r := SetResolution(c, h, h.resolution15Bit);
    if r.status != 0 {
      RmwRuns(c, Ctrl4, h.rs, h.resolution15Bit, r, ACTIVATE_CHECKS, r);
      return r;
    }
    var a := Activate(r.bus, h);
    RmwRuns(c, Ctrl4, h.rs, h.resolution15Bit, r, ACTIVATE_CHECKS, a);
    PeekShift(c, r.bus, 2);
    SameReplies(r.bus, c.(pos := c.pos + 2));
    NewConcat(c, r.bus, a.bus);
    o := a;
    if a.status == 0 {
      JoinConfigure(New(c, r.bus), New(r.bus, a.bus), h, ByteOf(c.Peek(0)), ByteOf(c.Peek(2)), ByteOf(c.Peek(4)));
    }
  }

  lemma JoinBringup(b: Bus, w: Bus, c: Bus, h: Layout)
    requires Extends(b, w) && New(b, w) == [Read(Wia, 1)] && w.pos == b.pos + 1
    requires Extends(w, c)
    requires ConfigureEvents(New(w, c), h, ByteOf(w.Peek(0)), ByteOf(w.Peek(2)), ByteOf(w.Peek(4)))
    ensures Extends(b, c) && BringupEvents(New(b, c), b, h)
  {
    NewConcat(b, w, c);
    assert New(b, c)[1..] == New(w, c);
    assert w.Peek(0) == b.Peek(1) && w.Peek(2) == b.Peek(3) && w.Peek(4) == b.Peek(5) by {
      PeekShift(b, w, 1);
    }
  }

  /** The identity check stops the run when it fails and otherwise hands
      over to the configuration. */
  lemma {:induction false} BringupRuns(b: Bus, o: Outcome)
    requires var w := WhoIAmCheck(b);
      if w.status != 0 then o == w else RunsChecks(w.bus, CONFIGURE_CHECKS, o)
    ensures RunsChecks(b, BRINGUP_CHECKS, o)
  {
    var w := WhoIAmCheck(b);
    var wia := Expect(WIA_VALUE, WRONG_DEVICE);
    if w.status != 0 {
      FailsFirst(b, wia, CONFIGURE_CHECKS, w);
    } else {
      PassesFirst(b, w.bus, wia, CONFIGURE_CHECKS, o);
    }
  }

  /** What `initialize` does once a reset went through: check the
      identity, then configure.  It succeeds exactly on a healthy chip,
      issuing the ten expected events. */
  method Bringup(b: Bus, h: Layout) returns (o: Outcome)
    ensures Extends(b, o.bus)
    ensures o.status == 0 <==> Healthy(b)
    ensures o.status == 0 ==> BringupEvents(New(b, o.bus), b, h)
    ensures !Ok(b.Peek(0)) ==> o.status == b.Peek(0).status
    ensures Ok(b.Peek(0)) && ByteOf(b.Peek(0)) != WIA_VALUE ==> o.status == WRONG_DEVICE
    ensures !(Ok(b.Peek(0)) && ByteOf(b.Peek(0)) == WIA_VALUE) ==> New(b, o.bus) == [Read(Wia, 1)]
    ensures RunsChecks(b, BRINGUP_CHECKS, o)
  {
    var w := WhoIAmCheck(b);
    if w.status != 0 {
      BringupRuns(b, w);
      return w;
    }
    var c := Configure(w.bus, h);
    BringupRuns(b, c);
    SameReplies(w.bus, b.(pos := b.pos + 1));
    NewConcat(b, w.bus, c.bus);
    o := c;
    if c.status == 0 {
      JoinBringup(b, w.bus, c.bus, h);
    }
  }

  /** With SRST a one-bit flag, the byte a soft reset writes has SRST
      set, whatever the leftover image held. */
  lemma SoftResetSetsSrst(bus: Bus, h: Layout, leftover: bv8)
    requires h.Valid()
    ensures var n := New(bus, SoftReset(bus, h, leftover).bus);
      n[0].Write? && Get(h.srst, n[0].bytes[0]) == 1
  {
    var n := New(bus, SoftReset(bus, h, leftover).bus);
    FlagReadsBack(h.srst, leftover, n[0].bytes[0]);
  }

  /** A soft reset writes CTRL3 once. */
  lemma SoftResetWrites(bus: Bus, h: Layout, leftover: bv8)
    ensures Writes(New(bus, SoftReset(bus, h, leftover).bus), Ctrl3) == 1
  {
    var o := SoftReset(bus, h, leftover);
    var e := New(bus, o.bus);
    if Ok(bus.Peek(0)) {
      var t := e[1..];
      assert t == [Slept(5), Read(Ctrl3, 1)];
      assert t[1..][1..] == [];
      assert Writes(t[1..], Ctrl3) == 0;
      assert Writes(t, Ctrl3) == 0;
    } else {
      assert e[1..] == [];
    }
    assert Writes(e, Ctrl3) == 1 + Writes(e[1..], Ctrl3);
  }

  /** Attempt `j` of the reset loop: a soft reset from the CTRL3 image
      `leftover(j)`, which the C code leaves uninitialised. */
  function ResetAttempt(h: Layout, leftover: nat -> bv8): Attempt {
    (c: Bus, j: nat) => SoftReset(c, h, leftover(j))
  }

  lemma ResetAttemptContinues(h: Layout, leftover: nat -> bv8)
    ensures Continues(ResetAttempt(h, leftover))
  {
    forall c: Bus, j: nat
      ensures Extends(c, ResetAttempt(h, leftover)(c, j).bus)
    {
      assert ResetAttempt(h, leftover)(c, j) == SoftReset(c, h, leftover(j));
    }
  }

  /** Each soft reset writes CTRL3 once, so the loop's CTRL3 writes count
      its attempts. */
  lemma ResetAttemptWrites(h: Layout, leftover: nat -> bv8)
    ensures OneWrite(ResetAttempt(h, leftover))
  {
    ResetAttemptContinues(h, leftover);
    forall c: Bus, j: nat
      ensures Writes(New(c, ResetAttempt(h, leftover)(c, j).bus), Ctrl3) == 1
    {
      SoftResetWrites(c, h, leftover(j));
    }
  }

  /** The reset loop of `initialize`. */
  function ResetLoop(b: Bus, h: Layout, leftover: nat -> bv8): (o: Outcome)
    ensures Extends(b, o.bus)
  {
    ResetAttemptContinues(h, leftover);
    Loop(b, ResetAttempt(h, leftover), 0)
  }

  /** When soft reset `n` is the first to go through, the reset loop of
      `initialize` succeeds after exactly `n + 1` soft resets. */
  lemma ResetSucceedsAt(b: Bus, h: Layout, leftover: nat -> bv8, n: nat)
    requires n < RESET_ATTEMPTS && FirstSuccessAt(b, ResetAttempt(h, leftover), 0, n)
    ensures ResetLoop(b, h, leftover).status == 0
    ensures Writes(New(b, ResetLoop(b, h, leftover).bus), Ctrl3) == n + 1
  {
    ResetAttemptWrites(h, leftover);
    Count(b, ResetAttempt(h, leftover), 0, n);
  }

  /** When all ten soft resets fail, the reset loop makes all of them and
      returns the status of the last. */
  lemma ResetGivesUp(b: Bus, h: Layout, leftover: nat -> bv8)
    requires AllFail(b, ResetAttempt(h, leftover), 0)
    ensures ResetLoop(b, h, leftover).status
         == SoftReset(LastBus(b, ResetAttempt(h, leftover), 0), h, leftover(RESET_ATTEMPTS - 1)).status
    ensures ResetLoop(b, h, leftover).status != 0
    ensures Writes(New(b, ResetLoop(b, h, leftover).bus), Ctrl3) == RESET_ATTEMPTS
  {
    ResetAttemptWrites(h, leftover);
    GivesUp(b, ResetAttempt(h, leftover), 0);
  }

  /** Whatever the replies, the reset loop makes between one and ten
      soft resets. */
  lemma ResetBounded(b: Bus, h: Layout, leftover: nat -> bv8)
    ensures 1 <= Writes(New(b, ResetLoop(b, h, leftover).bus), Ctrl3) <= RESET_ATTEMPTS
  {
    ResetAttemptWrites(h, leftover);
    Bounded(b, ResetAttempt(h, leftover), 0);
  }

  /** The reset loop of `initialize`, as the C code runs it. */
  method ResetChip(b: Bus, h: Layout, leftover: nat -> bv8) returns (o: Outcome)
    ensures o == ResetLoop(b, h, leftover)
  {
    ResetAttemptContinues(h, leftover);
    o := Run(b, ResetAttempt(h, leftover));
  }

  /** `initialize`: open the bus, wait 100 ms, run the reset loop, and if
      a reset went through wait 50 ms and bring the chip up. */
  method Initialize(bus: Bus, h: Layout, leftover: nat -> bv8) returns (o: Outcome)
    ensures Extends(bus, o.bus)
    ensures var rs := ResetLoop(Sleep(Open(bus), 100), h, leftover);
      && (rs.status != 0 ==> o == rs)
      && (rs.status == 0 ==>
            var c := Sleep(rs.bus, 50);
            && Extends(c, o.bus)
            && (o.status == 0 <==> Healthy(c))
            && (o.status == 0 ==> BringupEvents(New(c, o.bus), c, h))
            && (!Ok(c.Peek(0)) ==> o.status == c.Peek(0).status)
            && (Ok(c.Peek(0)) && ByteOf(c.Peek(0)) != WIA_VALUE ==> o.status == WRONG_DEVICE)
            && (!(Ok(c.Peek(0)) && ByteOf(c.Peek(0)) == WIA_VALUE) ==> New(c, o.bus) == [Read(Wia, 1)])
            && RunsChecks(c, BRINGUP_CHECKS, o))
  {
    var b := Sleep(Open(bus), 100);
    NewConcat(bus, Open(bus), b);
    var r := ResetChip(b, h, leftover);
    NewConcat(bus, b, r.bus);
    if r.status != 0 {
      return r;
    }
    var c := Sleep(r.bus, 50);
    o := Bringup(c, h);
    NewConcat(bus, r.bus, c);
    NewConcat(bus, c, o.bus);
  }
}

=== FILE: platform.dfy ===
/** The transport interface the driver is written against: register reads
    and writes on one device, a sleep, and opening the bus.  The physical
    bus is replaced by a scripted oracle: a fixed sequence of replies, one
    per bus transaction, consumed in order.  Every call the driver makes is
    appended to an event log, which is what the contracts talk about. */
module Platform {
  import opened Registers
  import opened Codec

  /** What the backend returns when the bus transaction fails. */
  const BUS_FAILURE: int8 := -1

  /** What the backend returns when a transfer does not fit its buffer. */
  const OVER_CAPACITY: int8 := -2

  /** Reads of this many bytes or more are refused. */
  const READ_CAPACITY: nat := 32

  /** Writes of this many bytes or more are refused (one byte of the
      32-byte frame carries the register index). */
  const WRITE_CAPACITY: nat := 31

  datatype Event =
    | Opened
    | Read(reg: Reg, len: nat)
    | Write(reg: Reg, bytes: seq<bv8>)
    | Slept(ms: nat)

  /** The outcome of one bus transaction: the backend's status and, for a
      read, the bytes it delivered. */
  datatype Reply = Reply(status: int8, data: seq<bv8>)

  datatype Bus = Bus(script: seq<Reply>, pos: nat, log: seq<Event>) {
    /** The reply to the `k`-th transaction from now.  Once the script is
        used up, every transaction fails. */
    function Peek(k: nat): Reply {
      if pos + k < |script| then script[pos + k] else Reply(BUS_FAILURE, [])
    }
  }

  /** The first byte of a reply, as a one-byte read delivers it. */
  function ByteOf(r: Reply): bv8 {
    if |r.data| > 0 then r.data[0] else 0
  }

  /** Exactly `len` bytes: those delivered, then zeros. */
  function Fill(data: seq<bv8>, len: nat): (buf: seq<bv8>)
    ensures |buf| == len
    ensures forall i :: 0 <= i < len && i < |data| ==> buf[i] == data[i]
    ensures len > 0 ==> buf[0] == (if |data| > 0 then data[0] else 0)
  {
    seq(len, i requires 0 <= i < len => if i < |data| then data[i] else 0)
  }

  /** `b2` continues `b1`: same script, nothing consumed is given back,
      and the log only grows. */
  predicate Extends(b1: Bus, b2: Bus) {
    && b2.script == b1.script
    && b1.pos <= b2.pos
    && b1.log <= b2.log
  }

  /** The events issued between `b1` and `b2`. */
  function New(b1: Bus, b2: Bus): seq<Event>
    requires Extends(b1, b2)
  {
    b2.log[|b1.log|..]
  }

  datatype ReadOut = ReadOut(status: int8, data: seq<bv8>, bus: Bus)

  datatype WriteOut = WriteOut(status: int8, bus: Bus)

  /** `t_open`. */
  function Open(bus: Bus): (b: Bus)
    ensures Extends(bus, b) && b.pos == bus.pos && New(bus, b) == [Opened]
  {
    bus.(log := bus.log + [Opened])
  }

  /** `t_sleep_ms`: only its place in the log is modelled. */
  function Sleep(bus: Bus, ms: nat): (b: Bus)
    ensures Extends(bus, b) && b.pos == bus.pos && New(bus, b) == [Slept(ms)]
  {
    bus.(log := bus.log + [Slept(ms)])
  }

  /** `t_read_register`: reads `len` bytes starting at `reg` in one
      transaction.  A read that would not fit the backend's buffer is
      refused before the bus is touched. */
  function ReadRegs(bus: Bus, reg: Reg, len: nat): (r: ReadOut)
    ensures Extends(bus, r.bus) && New(bus, r.bus) == [Read(reg, len)]
    ensures |r.data| == len
    ensures len >= READ_CAPACITY ==> r.status == OVER_CAPACITY && r.bus.pos == bus.pos
    ensures len < READ_CAPACITY ==>
      && r.status == bus.Peek(0).status
      && r.data == Fill(bus.Peek(0).data, len)
      && r.bus.pos == bus.pos + 1
  {
    var b := bus.(log := bus.log + [Read(reg, len)]);
    if len >= READ_CAPACITY then
      ReadOut(OVER_CAPACITY, Fill([], len), b)
    else
      ReadOut(bus.Peek(0).status, Fill(bus.Peek(0).data, len), b.(pos := bus.pos + 1))
  }

  /** `t_write_register`: writes `bytes` starting at `reg` in one
      transaction, refused before the bus is touched when too long. */
  function WriteRegs(bus: Bus, reg: Reg, bytes: seq<bv8>): (r: WriteOut)
    ensures Extends(bus, r.bus) && New(bus, r.bus) == [Write(reg, bytes)]
    ensures |bytes| >= WRITE_CAPACITY ==> r.status == OVER_CAPACITY && r.bus.pos == bus.pos
    ensures |bytes| < WRITE_CAPACITY ==>
      r.status == bus.Peek(0).status && r.bus.pos == bus.pos + 1
  {
    var b := bus.(log := bus.log + [Write(reg, bytes)]);
    if |bytes| >= WRITE_CAPACITY then
      WriteOut(OVER_CAPACITY, b)
    else
      WriteOut(bus.Peek(0).status, b.(pos := bus.pos + 1))
  }

  /** Status of an operation and the bus after it. */
  datatype Outcome = Outcome(status: int8, bus: Bus)

  /** Advancing past `k` replies shifts what is peeked. */
  lemma PeekAfter(b1: Bus, b2: Bus, k: nat, j: nat)
    requires b2.script == b1.script && b2.pos == b1.pos + k
    ensures b2.Peek(j) == b1.Peek(k + j)
  {
  }

  /** Extension is transitive, and the new events of the whole are the
      new events of the parts. */
  lemma NewConcat(b1: Bus, b2: Bus, b3: Bus)
    requires Extends(b1, b2) && Extends(b2, b3)
    ensures Extends(b1, b3)
    ensures New(b1, b3) == New(b1, b2) + New(b2, b3)
  {
    assert b3.log == b2.log[..|b2.log|] + New(b2, b3);
    assert b2.log == b1.log + New(b1, b2);
  }

  /** `PeekAfter` for every index at once. */
  lemma PeekShift(b1: Bus, b2: Bus, k: nat)
    requires b2.script == b1.script && b2.pos == b1.pos + k
    ensures forall j: nat :: b2.Peek(j) == b1.Peek(k + j)
  {
    forall j: nat ensures b2.Peek(j) == b1.Peek(k + j) {
      PeekAfter(b1, b2, k, j);
    }
  }
}

=== FILE: registers.dfy ===
/** The register map of the HSCDTD008A as the driver uses it.  Register
    addresses and bit positions belong to the register header, which is
    not part of this model; registers are named and fields are abstract. */
module Registers {
  import opened BitField

  datatype Reg =
    | Wia           // identity, reads 0x49
    | Ctrl1         // PC, ODR, FS
    | Ctrl2         // FCO, AOR, FF, DEN, DRP
    | Ctrl3         // SRST, OCL, TCS, STC, FRC
    | Ctrl4         // RS
    | Stat          // DRDY, TRDY
    | Temp          // signed 8-bit temperature
    | SelftestResp  // 0xAA then 0x55 after a self-test
    | XoutL         // first of the six axis bytes

  /** Where each field sits, and the two enumeration values the
      initialisation sequence writes. */
  datatype Layout = Layout(
    pc: Field, odr: Field, fs: Field,
    fco: Field, aor: Field, ff: Field, den: Field, drp: Field,
    srst: Field, ocl: Field, tcs: Field, stc: Field, frc: Field,
    rs: Field,
    drdy: Field, trdy: Field,
    modeActive: bv8, resolution15Bit: bv8)
  {
    /** The CTRL3 triggers and the STATUS flags are single bits. */
    predicate Valid() {
      && IsFlag(srst) && IsFlag(ocl) && IsFlag(tcs) && IsFlag(stc) && IsFlag(frc)
      && IsFlag(drdy) && IsFlag(trdy)
    }
  }
}

=== FILE: reset.dfy ===
/** The retry loop `initialize` runs before anything else: soft resets
    5 ms apart until one goes through, at most ten in all.  The loop is
    stated for any attempt that continues the bus and writes CTRL3 once,
    which is what a soft reset does; `Driver.ResetLoop` plugs the soft
    reset in. */
module Retry {
  import opened Registers
  import opened Platform
  import opened Trace

  /** How many soft resets `initialize` tries. */
  const RESET_ATTEMPTS: nat := 10

  /** The pause after each failed attempt, in milliseconds. */
  const RETRY_PAUSE: nat := 5

  /** Attempt `j` of the loop, run on bus `c`. */
  type Attempt = (Bus, nat) -> Outcome

  /** What the loop relies on: every attempt continues the bus it runs on. */
  ghost predicate Continues(attempt: Attempt) {
    forall c: Bus, j: nat :: Extends(c, attempt(c, j).bus)
  }

  /** What counting relies on: every attempt also writes CTRL3 exactly
      once, so the CTRL3 writes count attempts. */
  ghost predicate OneWrite(attempt: Attempt) {
    && Continues(attempt)
    && forall c: Bus, j: nat :: Writes(New(c, attempt(c, j).bus), Ctrl3) == 1
  }

  /** The bus the attempt after a failed attempt `i` on `b` starts on. */
  function Next(b: Bus, attempt: Attempt, i: nat): Bus {
    Sleep(attempt(b, i).bus, RETRY_PAUSE)
  }

  /** The loop from attempt `i` on, on bus `b`: the first attempt that
      returns 0 ends it; a failed one is followed by the pause, and after
      the last the status of that failure is returned. */
  function Loop(b: Bus, attempt: Attempt, i: nat): (o: Outcome)
    requires i < RESET_ATTEMPTS && Continues(attempt)
    ensures Extends(b, o.bus)
    decreases RESET_ATTEMPTS - i
  {
    var r := attempt(b, i);
    if r.status == 0 then r
    else
      var s := Next(b, attempt, i);
      NewConcat(b, r.bus, s);
      if i == RESET_ATTEMPTS - 1 then Outcome(r.status, s)
      else
        var o := Loop(s, attempt, i + 1);
        NewConcat(b, s, o.bus);
        o
  }

  /** Run from attempt `i` on `b`, attempts `i`, ..., `n - 1` fail and
      attempt `n` succeeds. */
  ghost predicate FirstSuccessAt(b: Bus, attempt: Attempt, i: nat, n: nat)
    decreases n - i
  {
    if n <= i then attempt(b, i).status == 0
    else attempt(b, i).status != 0 && FirstSuccessAt(Next(b, attempt, i), attempt, i + 1, n)
  }

  /** Attempts `i` to the last all fail from `b`. */
  ghost predicate AllFail(b: Bus, attempt: Attempt, i: nat)
    decreases RESET_ATTEMPTS - i
  {
    && attempt(b, i).status != 0
    && (i < RESET_ATTEMPTS - 1 ==> AllFail(Next(b, attempt, i), attempt, i + 1))
  }

  /** The bus the last attempt runs on when every attempt from `i` on
      `b` before it failed. */
  ghost function LastBus(b: Bus, attempt: Attempt, i: nat): Bus
    requires i < RESET_ATTEMPTS
    decreases RESET_ATTEMPTS - i
  {
    if i == RESET_ATTEMPTS - 1 then b else LastBus(Next(b, attempt, i), attempt, i + 1)
  }

  /** A failed attempt hands over to the next one. */
  lemma Step(b: Bus, attempt: Attempt, i: nat)
    requires Continues(attempt)
    requires i < RESET_ATTEMPTS - 1 && attempt(b, i).status != 0
    ensures Loop(b, attempt, i) == Loop(Next(b, attempt, i), attempt, i + 1)
  {
  }

  /** ... and the failed attempt adds its write. */
  lemma StepWrites(b: Bus, attempt: Attempt, i: nat)
    requires OneWrite(attempt)
    requires i < RESET_ATTEMPTS - 1 && attempt(b, i).status != 0
    ensures Loop(b, attempt, i) == Loop(Next(b, attempt, i), attempt, i + 1)
    ensures Extends(Next(b, attempt, i), Loop(b, attempt, i).bus)
    ensures Writes(New(b, Loop(b, attempt, i).bus), Ctrl3)
         == 1 + Writes(New(Next(b, attempt, i), Loop(b, attempt, i).bus), Ctrl3)
  {
    Step(b, attempt, i);
    var r := attempt(b, i);
    var s := Next(b, attempt, i);
    var o := Loop(s, attempt, i + 1);
    NewConcat(b, r.bus, s);
    NewConcat(b, s, o.bus);
    WritesAppend(New(b, r.bus), [Slept(RETRY_PAUSE)], Ctrl3);
    WritesAppend(New(b, s), New(s, o.bus), Ctrl3);
  }

  /** An attempt that goes through ends the loop with its outcome. */
  lemma Stops(b: Bus, attempt: Attempt, i: nat)
    requires Continues(attempt)
    requires i < RESET_ATTEMPTS && attempt(b, i).status == 0
    ensures Loop(b, attempt, i) == attempt(b, i)
  {
  }

  /** A failed last attempt ends the loop with its status. */
  lemma LastAttempt(b: Bus, attempt: Attempt)
    requires OneWrite(attempt)
    requires attempt(b, RESET_ATTEMPTS - 1).status != 0
    ensures Loop(b, attempt, RESET_ATTEMPTS - 1).status == attempt(b, RESET_ATTEMPTS - 1).status
    ensures Writes(New(b, Loop(b, attempt, RESET_ATTEMPTS - 1).bus), Ctrl3) == 1
  {
    var i := RESET_ATTEMPTS - 1;
    var r := attempt(b, i);
    NewConcat(b, r.bus, Next(b, attempt, i));
    WritesAppend(New(b, r.bus), [Slept(RETRY_PAUSE)], Ctrl3);
  }

  /** The loop makes at least one attempt and at most the ten it is
      allowed. */
  lemma {:induction false} Bounded(b: Bus, attempt: Attempt, i: nat)
    requires OneWrite(attempt) && i < RESET_ATTEMPTS
    ensures 1 <= Writes(New(b, Loop(b, attempt, i).bus), Ctrl3) <= RESET_ATTEMPTS - i
    decreases RESET_ATTEMPTS - i
  {
    if attempt(b, i).status == 0 {
      Stops(b, attempt, i);
    } else if i == RESET_ATTEMPTS - 1 {
      LastAttempt(b, attempt);
    } else {
      StepWrites(b, attempt, i);
      Bounded(Next(b, attempt, i), attempt, i + 1);
    }
  }

  /** When attempt `n` is the first that goes through, the loop started
      at attempt `i` makes exactly `n - i + 1` attempts and succeeds. */
  lemma {:induction false} Count(b: Bus, attempt: Attempt, i: nat, n: nat)
    requires OneWrite(attempt) && i <= n < RESET_ATTEMPTS
    requires FirstSuccessAt(b, attempt, i, n)
    ensures Loop(b, attempt, i).status == 0
    ensures Writes(New(b, Loop(b, attempt, i).bus), Ctrl3) == n - i + 1
    decreases n - i
  {
    if n == i {
      Stops(b, attempt, i);
    } else {
      StepWrites(b, attempt, i);
      Count(Next(b, attempt, i), attempt, i + 1, n);
    }
  }

  /** When every attempt fails, the loop makes all of them and returns the
      status of the last. */
  lemma {:induction false} GivesUp(b: Bus, attempt: Attempt, i: nat)
    requires OneWrite(attempt) && i < RESET_ATTEMPTS
    requires AllFail(b, attempt, i)
    ensures Loop(b, attempt, i).status != 0
    ensures Loop(b, attempt, i).status == attempt(LastBus(b, attempt, i), RESET_ATTEMPTS - 1).status
    ensures Writes(New(b, Loop(b, attempt, i).bus), Ctrl3) == RESET_ATTEMPTS - i
    decreases RESET_ATTEMPTS - i
  {
    if i == RESET_ATTEMPTS - 1 {
      LastAttempt(b, attempt);
    } else {
      StepWrites(b, attempt, i);
      GivesUp(Next(b, attempt, i), attempt, i + 1);
    }
  }

  /** The loop as the C code runs it: a counted loop left early on the
      first success. */
  method Run(b: Bus, attempt: Attempt) returns (o: Outcome)
    requires Continues(attempt)
    ensures o == Loop(b, attempt, 0)
  {
    ghost var rs := Loop(b, attempt, 0);
    var cur := b;
    var r := Outcome(0, b);
    var i := 0;
    while i < RESET_ATTEMPTS
      invariant i <= RESET_ATTEMPTS
      invariant i < RESET_ATTEMPTS ==> Loop(cur, attempt, i) == rs
      invariant i == RESET_ATTEMPTS ==> r.status != 0 && rs == Outcome(r.status, cur)
    {
      r := attempt(cur, i);
      if r.status == 0 {
        break;
      }
      if i < RESET_ATTEMPTS - 1 {
        Step(cur, attempt, i);
      }
      cur := Sleep(r.bus, RETRY_PAUSE);
      i := i + 1;
    }
    if r.status != 0 {
      return Outcome(r.status, cur);
    }
    return r;
  }
}

=== FILE: trace.dfy ===
/** Facts about event logs and polling runs, shared by the protocols. */
module Trace {
  import opened BitField
  import opened Registers
  import opened Platform

  /** How many reads of `reg` the events issue. */
  function Reads(ev: seq<Event>, reg: Reg): nat {
    if |ev| == 0 then 0
    else (if ev[0].Read? && ev[0].reg == reg then 1 else 0) + Reads(ev[1..], reg)
  }

  /** How many writes to `reg` the events issue. */
  function Writes(ev: seq<Event>, reg: Reg): nat {
    if |ev| == 0 then 0
    else (if ev[0].Write? && ev[0].reg == reg then 1 else 0) + Writes(ev[1..], reg)
  }

  /** `block` issued `n` times in a row. */
  function Repeat(block: seq<Event>, n: nat): (ev: seq<Event>)
    ensures |ev| == n * |block|
  {
    if n == 0 then [] else block + Repeat(block, n - 1)
  }

  lemma {:induction false} ReadsAppend(a: seq<Event>, b: seq<Event>, reg: Reg)
    ensures Reads(a + b, reg) == Reads(a, reg) + Reads(b, reg)
    decreases |a|
  {
    if |a| == 0 {
      assert a + b == b;
    } else {
      assert (a + b)[1..] == a[1..] + b;
      ReadsAppend(a[1..], b, reg);
    }
  }

  lemma {:induction false} WritesAppend(a: seq<Event>, b: seq<Event>, reg: Reg)
    ensures Writes(a + b, reg) == Writes(a, reg) + Writes(b, reg)
    decreases |a|
  {
    if |a| == 0 {
      assert a + b == b;
    } else {
      assert (a + b)[1..] == a[1..] + b;
      WritesAppend(a[1..], b, reg);
    }
  }

  lemma {:induction false} ReadsRepeat(block: seq<Event>, n: nat, reg: Reg)
    ensures Reads(Repeat(block, n), reg) == n * Reads(block, reg)
  {
    if n > 0 {
      ReadsAppend(block, Repeat(block, n - 1), reg);
      ReadsRepeat(block, n - 1, reg);
      assert n * Reads(block, reg) == Reads(block, reg) + (n - 1) * Reads(block, reg);
    }
  }

  /** Issuing the block once more appends it. */
  lemma {:induction false} RepeatSnoc(block: seq<Event>, n: nat)
    ensures Repeat(block, n + 1) == Repeat(block, n) + block
  {
    if n > 0 {
      RepeatSnoc(block, n - 1);
    }
  }

  /** `bus` after `k` polls that each issued `block` and consumed one
      reply. */
  function Waited(bus: Bus, block: seq<Event>, k: nat): (b: Bus)
    ensures Extends(bus, b) && b.pos == bus.pos + k && New(bus, b) == Repeat(block, k)
  {
    bus.(pos := bus.pos + k, log := bus.log + Repeat(block, k))
  }

  /** One poll and then `k` more are `k + 1` polls. */
  lemma WaitedAfterOne(bus: Bus, block: seq<Event>, k: nat)
    ensures Waited(Waited(bus, block, 1), block, k) == Waited(bus, block, k + 1)
  {
    assert Repeat(block, 1) == block;
    assert bus.log + block + Repeat(block, k) == bus.log + (block + Repeat(block, k));
  }

  /** `k` polls and then one more are `k + 1` polls. */
  lemma WaitedThenOne(bus: Bus, block: seq<Event>, k: nat)
    ensures Waited(bus, block, k + 1)
         == Waited(bus, block, k).(pos := bus.pos + k + 1, log := Waited(bus, block, k).log + block)
  {
    RepeatSnoc(block, k);
    assert bus.log + Repeat(block, k) + block == bus.log + (Repeat(block, k) + block);
  }

  /** A successful STATUS read that did not find `flag` set. */
  predicate Quiet(r: Reply, flag: Field) {
    r.status == 0 && Get(flag, ByteOf(r)) != 1
  }

  /** Poll `j` of a run whose first reply is at `from` was quiet. */
  predicate QuietAt(bus: Bus, flag: Field, from: nat, j: nat) {
    Quiet(bus.Peek(from + j), flag)
  }

  /** Of `n` polls answered by the replies from `from` on, the index of the
      first that fails or finds `flag` set; `n` when every poll is quiet. */
  function FirstStop(bus: Bus, flag: Field, from: nat, n: nat): (k: nat)
    ensures k <= n
    ensures forall j :: 0 <= j < k ==> QuietAt(bus, flag, from, j)
    ensures k < n ==> !QuietAt(bus, flag, from, k)
    decreases n
  {
    if n == 0 || !QuietAt(bus, flag, from, 0) then 0
    else
      var k := FirstStop(bus, flag, from + 1, n - 1);
      QuietShift(bus, flag, from, from + 1, k);
      1 + k
  }

  lemma QuietShift(bus: Bus, flag: Field, from: nat, next: nat, k: nat)
    requires next == from + 1
    requires forall j :: 0 <= j < k ==> QuietAt(bus, flag, next, j)
    ensures forall j :: 1 <= j <= k ==> QuietAt(bus, flag, from, j)
  {
    forall j | 1 <= j <= k
      ensures QuietAt(bus, flag, from, j)
    {
      assert QuietAt(bus, flag, next, j - 1);
    }
  }

  /** The stopping index is pinned down by the replies. */
  lemma FirstStopIs(bus: Bus, flag: Field, from: nat, n: nat, k: nat)
    requires k <= n
    requires forall j :: 0 <= j < k ==> QuietAt(bus, flag, from, j)
    requires k < n ==> !QuietAt(bus, flag, from, k)
    ensures FirstStop(bus, flag, from, n) == k
  {
  }

  /** After a quiet first poll, the run continues on the bus that has
      consumed its reply. */
  lemma FirstStopStep(b1: Bus, b2: Bus, flag: Field, n: nat)
    requires b2.script == b1.script && b2.pos == b1.pos + 1
    requires 0 < n && QuietAt(b1, flag, 0, 0)
    ensures FirstStop(b1, flag, 0, n) == 1 + FirstStop(b2, flag, 0, n - 1)
  {
    var k := FirstStop(b1, flag, 1, n - 1);
    forall j | 0 <= j <= k && j < n - 1
      ensures QuietAt(b2, flag, 0, j) <==> QuietAt(b1, flag, 1, j)
    {
      PeekAfter(b1, b2, 1, j);
    }
    FirstStopIs(b2, flag, 0, n - 1, k);
  }
}

=== FILE: transport.dfy ===
/** The transport API of the portable driver: single- and multi-register
    reads and a single-register write, each guarding against a null
    buffer and folding every backend failure into one status.  The device
    handle only carries the bus address, which the scripted bus does not
    model, so it is left out of the signatures. */
module Transport {
  import opened Registers
  import opened Codec
  import opened Platform

  /** `hscdtd_status_t`, as far as this layer produces it. */
  datatype Status = StatOk | TransportError

  /** A C pointer: null, or pointing at a `T`. */
  datatype Ptr<T> = Null | Points(target: T)

  /** The C type of a transfer length. */
  type uint8 = x: int | 0 <= x < 0x100

  /** Status of a read, the caller's buffer afterwards, and the bus. */
  datatype ReadResult = ReadResult(status: Status, buffer: Ptr<seq<bv8>>, bus: Bus)

  datatype WriteResult = WriteResult(status: Status, bus: Bus)

  /** `read_register_multi`: a null buffer is refused before the backend
      is called; otherwise one backend read is issued, and it is OK
      exactly when the backend returns 0, whatever nonzero code it
      returns otherwise. */
  function ReadRegisterMulti(bus: Bus, reg: Reg, length: uint8, dest: Ptr<seq<bv8>>): (r: ReadResult)
    ensures dest.Null? ==> r == ReadResult(TransportError, Null, bus)
    ensures dest.Points? ==>
      && Extends(bus, r.bus) && New(bus, r.bus) == [Read(reg, length)]
      && r.buffer.Points?
    ensures r.status == StatOk <==>
      dest.Points? && length < READ_CAPACITY && bus.Peek(0).status == 0
    ensures r.status == StatOk ==>
      r.buffer == Points(Fill(bus.Peek(0).data, length)) && r.bus.pos == bus.pos + 1
  {
    if dest.Null? then ReadResult(TransportError, Null, bus)
    else
      var rd := ReadRegs(bus, reg, length);
      if rd.status != 0 then ReadResult(TransportError, Points(rd.data), rd.bus)
      else ReadResult(StatOk, Points(rd.data), rd.bus)
  }

  /** `read_register`: a one-byte `read_register_multi`. */
  function ReadRegister(bus: Bus, reg: Reg, dest: Ptr<seq<bv8>>): (r: ReadResult)
    ensures dest.Null? ==> r == ReadResult(TransportError, Null, bus)
    ensures dest.Points? ==> Extends(bus, r.bus) && New(bus, r.bus) == [Read(reg, 1)]
    ensures r.status == StatOk <==> dest.Points? && bus.Peek(0).status == 0
    ensures r.status == StatOk ==> r.buffer == Points([ByteOf(bus.Peek(0))])
  {
    var r := ReadRegisterMulti(bus, reg, 1, dest);
    assert r.status == StatOk ==> Fill(bus.Peek(0).data, 1) == [ByteOf(bus.Peek(0))];
    r
  }

  /** `write_register`: a null source is refused before the backend is
      called; otherwise the one byte it points at is written, and the
      write is OK exactly when the backend returns 0. */
  function WriteRegister(bus: Bus, reg: Reg, src: Ptr<bv8>): (r: WriteResult)
    ensures src.Null? ==> r == WriteResult(TransportError, bus)
    ensures src.Points? ==>
      Extends(bus, r.bus) && New(bus, r.bus) == [Write(reg, [src.target])]
    ensures r.status == StatOk <==> src.Points? && bus.Peek(0).status == 0
    ensures r.status == StatOk ==> r.bus.pos == bus.pos + 1
  {
    if src.Null? then WriteResult(TransportError, bus)
    else
      var wr := WriteRegs(bus, reg, [src.target]);
      if wr.status != 0 then WriteResult(TransportError, wr.bus)
      else WriteResult(StatOk, wr.bus)
  }

  /** Every backend failure looks the same through this layer: two buses
      that differ only in which nonzero code the next reply carries give
      the same result. */
  lemma FailuresCollapse(b1: Bus, b2: Bus, reg: Reg, length: uint8, dest: Ptr<seq<bv8>>)
    requires b1.pos == b2.pos && b1.log == b2.log && |b1.script| == |b2.script|
    requires forall i :: 0 <= i < |b1.script| && i != b1.pos ==> b1.script[i] == b2.script[i]
    requires b1.Peek(0).status != 0 && b2.Peek(0).status != 0
    requires b1.Peek(0).data == b2.Peek(0).data
    ensures ReadRegisterMulti(b1, reg, length, dest).status == TransportError
    ensures ReadRegisterMulti(b2, reg, length, dest).status == TransportError
    ensures ReadRegisterMulti(b1, reg, length, dest).buffer
         == ReadRegisterMulti(b2, reg, length, dest).buffer
    ensures ReadRegisterMulti(b1, reg, length, dest).bus.log
         == ReadRegisterMulti(b2, reg, length, dest).bus.log
  {
  }
}
